=== FILE: README.md ===
# leopart core in Dafny

A model of the decision logic of leopart, a search engine for electronic
parts used in open-source KiCad boards. The system has five cooperating
parts, each modelled as pure functions over immutable records:

- **Parts catalogue build and matching** (`validator.py`, modules
  `PartMatcher` and `PartsCatalog`). The catalogue is paged from the parts
  API: a queue of page URLs is consumed front first, and every page's next
  link joins the back. Two loop detectors stop the build, each with its own
  exit code: an offset that does not grow, and a next link equal to the
  page just fetched. Bad responses and insertion failures stop it too. A
  build that finished less than a week ago is skipped. Stored board items
  are then matched to the catalogue part whose part number is nearest by
  Levenshtein distance, after a case-insensitive containment pre-filter.
- **Board post-processing** (`kicad_parser.py`, module `KicadParser`). The
  reference and value of each footprint come from its free-text fields.
  Duplicate (footprint, value) pairs are dropped. Common symbols are
  removed by a reference pattern, value patterns and an exclusion list.
  One item is created per survivor.
- **GitHub crawler** (`crawler.py`, modules `Crawler` and `Calendar`). The
  crawl resumes from a checkpoint or starts cold in 2015-01. It searches
  month by month, keeps only `.kicad_pcb` download URLs, writes a
  checkpoint after every month, and pauses for rate limits and abuse
  detection.
- **Quota manager** (`libs/RateManager.py`, module `RateManager`). It has a
  query counter with a daily limit, a flag that forces the limit, and the
  next reset instant. It also decides how long to wait for the reset.
- **Search back end** (`search.py`, module `Search`). The query is
  upper-cased and split. Matching rows are grouped into one object per
  repository, each carrying file entries and tags. The objects are sorted
  stably by forks plus stars, highest first.

Shared modules: `Wrappers` (`Option`, `Result`), `Text` (ASCII case
mapping, containment, Python's two `str.split` behaviours), `Seqs`
(order-preserving filter, subsequences) and `Models` (the database
records).

The database, HTTP, the KiCad file parser, pickle files, clocks, sleeps and
signals are all outside the model. Where the code reads one of them, the
value read is a parameter:
- query results are sequences of records;
- an API response is a value;
- a run of the fetch loop is a trace of observations;
- the GitHub API for a month is a function `api(ym)`;
- a clock is an integer count of seconds, or a sequence of readings taken
  between sleeps;
- a stop signal is a boolean.

Three behaviours of the quota manager that are easy to misread, modelled as the code has them:
- Forcing the quota limit does not set a flag: the code calls itself until
  Python's recursion limit raises.
- The wait for the reset ends once the clock is strictly past the reset
  instant. No grace period is added.
- The quota counter counts queries up from zero against a limit of 1000.
  It is not a remaining budget counted down.

## Model

| member | source | states |
|---|---|---|
| PartMatcher.LevenshteinSelf | validator.py:317 | every part number is at edit distance 0 from itself |
| PartMatcher.LevenshteinZero | validator.py:317 | edit distance 0 only between equal strings |
| PartMatcher.FirstArgminUnique | validator.py:314-322 | the earliest position of minimal distance is unique, so the match is determined by value and candidates |
| PartMatcher.MatchParts | validator.py:306-322 | `None` exactly for an empty candidate list; otherwise the candidate of minimal distance to the value, the earliest among ties because only a strictly smaller distance replaces the best |
| PartMatcher.ExactMatchChosen | validator.py:314-322 | a candidate whose part number equals the value, with no earlier exact match, is the one chosen |
| PartMatcher.ExactPartNumberExample | validator.py:314-322 | value STM32ASDF against STM32F1, STM32ASDF, STM32ASDG picks the second candidate |
| PartMatcher.ValidateParts | validator.py:325-346 | every item gets the part id of its best candidate among the parts whose number contains its value ignoring case; items with no candidate are left unchanged; one output per input, in order |
| PartsCatalog.ExitCodesDistinct | validator.py:244-291 | the exit codes -3, -2, -4, -5, -6, -7 and -10 each name exactly one cause |
| PartsCatalog.Step | validator.py:232-296 | one page: non-200 aborts with -5 first; an offset at or below the recorded one aborts with -10; a next link equal to the URL just fetched aborts with -6; a failed insertion aborts with -7 after saving the queue without the page just fetched, its next link appended, and the page's meta; only -7 saves; otherwise the head leaves the queue, the next link joins the back, the page's meta replaces the recorded one, and the new queue and meta are saved |
| PartsCatalog.Run | validator.py:232-303 | the loop ends with an empty queue or a stop request; a finished run saves only the finish time, a stopped one saves its queue and meta; the recorded offset never decreases |
| PartsCatalog.AcceptedOffsetsIncrease | validator.py:213-218 | the offsets of accepted pages strictly increase, each above the offset the loop started with |
| PartsCatalog.RunConcat | validator.py:232-296 | a run cut off at the end of its observations continues from the state reached as if never cut |
| PartsCatalog.AnomalyStopsRun | validator.py:255-285 | a detected loop (-6 or -10) ends the run at once and saves nothing |
| PartsCatalog.Resume | validator.py:200-222 | skipped exactly when the last finish is less than a week before now; otherwise the saved queue or the seed URL, the saved meta unless the last build finished, and fresh meta {-1,-1,-1} otherwise |
| PartsCatalog.ResumeAfterPage | validator.py:287-293 | the progress saved after a page restores exactly the loop state that followed it |
| PartsCatalog.ResumeAfterInsertFailure | validator.py:233-293 | after a -7 abort the next start resumes past the page whose parts were not stored, with its next link queued and its meta recorded |
| PartsCatalog.ResumeAfterStop | validator.py:299-303 | the progress saved on a graceful stop restores the stopped loop state |
| PartsCatalog.BuildPartsDb | validator.py:193-303 | the build is skipped exactly within a week of the last finish; with no saved status it runs from the seed URL with fresh meta |
| PartsCatalog.SkippedForAWeek | validator.py:202-208 | a build that finished at time f is skipped exactly while now < f + 1 week |
| KicadParser.ScanFields | kicad_parser.py:249-261 | reference and value are the texts of the last free-text field of their kind, `None` when the kind is absent |
| KicadParser.LastTextExtend | kicad_parser.py:253-261 | a later field becomes the last of its kind and leaves other kinds alone |
| KicadParser.ExtractTakesLastField | kicad_parser.py:233-279 | the extracted entry keeps name, description and tags, and takes reference and value from the last matching fields |
| KicadParser.ExtractAll | kicad_parser.py:233-279 | one entry per footprint, in board order |
| KicadParser.DeduplicateKeepsFirsts | kicad_parser.py:376-392 | the output has distinct (footprint, value) keys, is a subsequence of the input, keeps every first occurrence of a key, holds nothing else, and equals the first occurrences listed in input order |
| KicadParser.DeduplicateIsFirsts | kicad_parser.py:376-392 | the loop's output is exactly the list of entries whose key no earlier entry has, in input order, which fixes the order even when identical entries repeat |
| KicadParser.DeduplicateIdempotent | kicad_parser.py:376-392 | deduplicating twice equals deduplicating once |
| KicadParser.TwoPassesKeepSurvivors | kicad_parser.py:366-371 | the pattern pass then the list pass keep exactly the entries passing every rule |
| KicadParser.CleanData | kicad_parser.py:307-373 | fails with `TypeError` exactly when a pattern meets a missing field; fails with `NameError` exactly when the exclusion list is needed and was never read; succeeds exactly when neither error applies, and then keeps exactly the survivors, in order |
| KicadParser.CleanDataKeepsSurvivors | kicad_parser.py:366-373 | the cleaned list is a subsequence of its input, each kept entry passes every rule, and every entry passing every rule is kept |
| KicadParser.ExcludedReferenceExamples | kicad_parser.py:316-362 | R12 and SW3:1 followed by a line feed match the reference pattern |
| KicadParser.KeptReferenceExamples | kicad_parser.py:358-362 | R and RRRR1 do not match it |
| KicadParser.CommonValueExamples | kicad_parser.py:334-345 | 4.7k and Conn_01x02 are common components |
| KicadParser.UnitNeedsNumberExample | kicad_parser.py:334-337 | K4.7 is not a common component |
| KicadParser.ToItem | kicad_parser.py:291-298 | the item carries the entry's footprint name, description, tags, reference and value |
| KicadParser.ItemsOf | kicad_parser.py:287-299 | one item per surviving entry, in order |
| KicadParser.ParseKicadFile | kicad_parser.py:214-304 | a board without modules gives the empty result; otherwise it succeeds exactly when the cleaning succeeds and something survives, with one item per survivor of extract-then-deduplicate-then-clean; an empty board, or one whose modules are all filtered out, raises "Modules are empty!", and a cleaning error is passed on as it is |
| KicadParser.ParsedItemsAreCleanAndUnique | kicad_parser.py:281-299 | the parsed items have distinct (footprint, value) pairs, pass every cleaning rule, and come from the board's entries in board order |
| RateManager.Update | libs/RateManager.py:88-94 | the counter grows by exactly one and nothing else changes |
| RateManager.NextResetTime | libs/RateManager.py:29-54 | the result is a reset instant (midnight), after the input by at most a day, and the first reset instant after it |
| RateManager.Init | libs/RateManager.py:56-58 | a new manager has counted no queries, has no forced limit, has not reached its limit, and its next reset is the first midnight after now |
| RateManager.Reset | libs/RateManager.py:96-104 | zero count, flag cleared, limit not reached, next reset moved to the following midnight |
| RateManager.WaitUntil | libs/RateManager.py:60-74 | the number of 60-second sleeps is the first reading strictly past the target; `None` exactly when no reading gets past it |
| RateManager.WaitIsBounded | libs/RateManager.py:68-74 | with sleeps of at least 60 s the wait takes at most (until - start)/60 + 1 sleeps |
| RateManager.CheckAndWait | libs/RateManager.py:76-86 | no change when the limit is not reached; otherwise waits strictly past the next reset, then the count is 0, the flag is clear and the limit is no longer reached |
| RateManager.UpdateNCounts | libs/RateManager.py:88-94 | k updates add exactly k to the counter and leave the rest unchanged |
| RateManager.LimitAfterQueries | libs/RateManager.py:22-27 | after a reset the limit is reached exactly from the 1000th query on |
| RateManager.ForceLimitAsWrittenRaises | libs/RateManager.py:106-112 | forcing the limit as written raises a recursion error from any state and depth, and never sets the flag |
| RateManager.ForceLimit | libs/RateManager.py:106-112 | the intended forcing: the limit is reached, count and reset unchanged |
| RateManager.ForcedLimitHoldsUntilReset | libs/RateManager.py:22-27 | a forced limit holds whatever the count, until a reset clears it |
| Calendar.DaysInMonth | crawler.py:84 | the Gregorian month length: 29 for a leap February, 28 for another February, 30 for April, June, September and November |
| Calendar.FirstPlus31 | crawler.py:61-63 | the first of a month plus 31 days falls in the next month, on day 32 minus the month's length |
| Calendar.SliceBounds | crawler.py:84-91 | a month's search covers its first through its last day, and every day of the month lies between them |
| Calendar.SlicesAreContiguous | crawler.py:82-91 | the day after one month's slice is the first day of the next |
| Calendar.MonthlyIsConsecutive | crawler.py:82 | the monthly recurrence from a day every month has starts at the start month, visits consecutive months, and stops at the last month whose day is not after now |
| Calendar.ConsecutiveIncreasing | crawler.py:82 | consecutive months are strictly increasing |
| Crawler.HandleGithubException | crawler.py:256-267 | an abuse-detection message adds exactly one to the count and pauses 300 s; any other message changes nothing |
| Crawler.HandleOptionalError | crawler.py:127-129 | handling a caught error adds exactly its abuse count |
| Crawler.CheckRateLimit | crawler.py:192-215 | proceeds exactly when remaining ≥ the safety margin; otherwise sleeps until 5 s past the reset, or is rejected by `time.sleep` when that lies in the past |
| Crawler.KicadUrls | crawler.py:117-125 | exactly the download URLs ending in `.kicad_pcb`, in listing order, each as many times as the listing holds it |
| Crawler.Readme | crawler.py:136-155 | the content and URL of the last file named readme.md in any case, or the placeholder when there is none or the listing raised |
| Crawler.License | crawler.py:106-115 | the license `get_license` returned, or the placeholder when it raised |
| Crawler.EntryOf | crawler.py:157-168 | the corrected entry of the license finding: the repository's fields, its readme, the license `get_license` found (the default when it raised) and its `.kicad_pcb` URLs |
| Crawler.EntryAsWritten | crawler.py:136-168 | the entry the code records: the repository's fields, its readme and its `.kicad_pcb` URLs, with the placeholder license and an empty license URL |
| Crawler.LicenseLostAsWritten | crawler.py:136-141 | as written, a license found by `get_license` is replaced by the placeholder before the entry is built |
| Crawler.VisitRepo | crawler.py:99-180 | every repository counts as searched; files found grows by the number of kept URLs; an entry, carrying the placeholder license, is appended exactly when there is at least one; abuse errors are counted |
| Crawler.VisitRepoIntended | crawler.py:99-180 | the corrected visit: the same counters and the same appended entry as the code's, except that the entry carries the license that was found |
| Crawler.TotalCountOnlyWarns | crawler.py:92-97 | a month's reported total does not change how it is crawled |
| Crawler.VisitReposInvariant | crawler.py:99-180 | files found minus the recorded URLs stays constant; repos searched grows by one per repository; entries are only appended, and each holds at least one `.kicad_pcb` URL and nothing else |
| Crawler.CrawlMonthKeepsBalance | crawler.py:82-184 | one month keeps that balance and only appends well-formed entries |
| Crawler.SaveOf | crawler.py:231-253 | a checkpoint records the month, the counters and the repository list |
| Crawler.CrawlMonths | crawler.py:82-184 | one checkpoint per month, in month order, each naming its month; the last one holds the final state |
| Crawler.CheckpointIsPrefixState | crawler.py:182-184 | the checkpoint after each month holds the month, counters and repository list the crawl reached after exactly the months up to it |
| Crawler.FinalKeepsBalance | crawler.py:82-187 | the final state keeps the starting balance and extends the starting list with well-formed entries |
| Crawler.CheckpointKeepsBalance | crawler.py:182-184 | every checkpoint keeps the starting balance and extends the starting list with well-formed entries |
| Crawler.CheckpointExtends | crawler.py:182-184 | each checkpoint's repository list extends the previous one's |
| Crawler.Resume | crawler.py:56-76 | with both files the crawl starts in the month after the checkpoint, on day 1 to 4, with the saved counters and list; otherwise it starts cold on 2015-01-01 with nothing |
| Crawler.Crawl | crawler.py:45-187 | fails exactly when no month is due (the final save has no month); otherwise one checkpoint per month in order, plus the last one written again |
| Crawler.CrawlVisitsMonthsInOrder | crawler.py:56-82 | months are consecutive and strictly increasing, and the first is the month after the checkpoint, or 2015-01 on a cold start |
| Crawler.ColdCrawlCountsRecordedFiles | crawler.py:117-187 | without a checkpoint, every saved status counts exactly the URLs of the list saved with it, all of them `.kicad_pcb` |
| Text.SplitOn | search.py:28 | joining the parts with the separator gives back the text, no part contains the separator, and every cut is at the leftmost occurrence (no part followed by all but the last character of the separator contains it) |
| Text.WordLayout | search.py:28 | the text is split into whitespace gaps and non-empty words without whitespace, which interleave back into the text |
| Search.PreprocessQuery | search.py:18-29 | fails exactly for an empty separator; without a separator the terms are the non-empty whitespace-free runs of the upper-cased query; with one, joining the terms with it gives back the upper-cased query, no term contains it, and each cut is at its leftmost occurrence |
| Search.NoTermsIffBlank | search.py:133-139 | a whitespace split has no terms exactly when the query is blank |
| Search.Basename | search.py:78 | the file name has no `/`, ends the URL, and follows its last `/` |
| Search.StripQuotes | search.py:83-88 | exactly one leading `"` is removed when present, exactly one trailing `"` when present, and nothing else |
| Search.TagList | search.py:83-100 | no tags become `[]`; otherwise at least one tag, without `;`, joining back with `;` into the unquoted string |
| Search.FileItemOf | search.py:67-120 | the file entry copies description, value and URL, takes the URL's basename and the tag list, and takes the part's fields or `""` without a part |
| Search.RepoObjOf | search.py:44-64 | a repository object copies the repository's id, name, description, license, license URL, readme, stars, forks and URL, with no files and no tags |
| Search.LookupRepo | search.py:164 | succeeds exactly when one repository has the id; fails with not-found or not-unique otherwise |
| Search.GroupIsGrouped | search.py:154-201 | grouping succeeds exactly when every row's repository is found once; then each repository with a row has one object with its fields, the files of its rows in row order and their tags, ordered by each repository's last row; otherwise the error of the first failing row |
| Search.MatchingRows | search.py:142-151 | exactly the rows whose item value contains the term ignoring case, in order, each as many times as the table holds it |
| Search.SortByRelevance | search.py:32-41 | the result is a permutation of the input |
| Search.SortIsStable | search.py:32-41 | the result is ordered by forks plus stars, highest first, and objects of equal score keep their input order |
| Search.SortKeepsDistinct | search.py:32-41 | sorting keeps repository ids distinct |
| Search.SortKeepsTies | search.py:191-204 | after sorting, repositories of equal score appear in the order of their last matching row |
| Search.SearchFor | search.py:123-223 | no terms exactly for a blank query without separator; the empty-separator error exactly for an empty separator; found results are sorted and have distinct ids |
| Search.SearchGroupsMatches | search.py:133-204 | with a first term, the search succeeds exactly when every matching row's repository is found once; then each such repository has one object with its fields, files and tags, every object belongs to a repository with a matching row and the objects are a reordering of the grouping, ordered by score and, among equals, by last row; otherwise the first failing row's error |
| Search.NoMatchFindsNothing | search.py:133-204 | a first term that matches no row gives a successful search with an empty result list |

## Left out

- Database work (sessions, queries, commits, `create_all`): query results are input sequences, and insertion of a page's parts is the observed flag `stored`.
- HTTP, PyGithub and the pickle files: responses, search results and checkpoints are values passed in and out.
- Signal handlers, logging, configuration, progress bars and the 20-second pause between pages: no effect on the modelled decisions.
- The exit codes -3, -2 and -4: they arise while reading the configuration and opening the database at import time, and appear only as values of `PartsCatalog.Exit`.
- The `uuid` of extracted modules and items: random and never compared.
- The `test` flag of the crawler, which stops after the first recorded repository: testing only.
- The `KeyboardInterrupt` handler of the crawler: an interrupt ends the crawl between checkpoints and adds no decision.
- Crawler.CheckRateLimit: its decision is not wired into the crawl. Only its effect on time is lost, and the `time.sleep` rejection of a negative length is not propagated as a crash.
- Crawler.VisitRepo: a `GithubException` raised by the search or listing calls themselves, or by a rate-limit check outside the guarded loops, is modelled only where it ends a listing (`codeError`, `infoError`, `searchError`). Exceptions other than `GithubException` are not modelled.
- Crawler.CrawlMonthsFrom: it models `rrule` with the real start day of 1 to 4 that the 31-day step produces. It relies on that day existing in every month.
- RateManager.NextResetTime: the reset instant is relabelled to US/Central without conversion. Here times are plain UTC seconds, so this is left out; the reset is midnight on the abstract clock.
- RateManager.WaitUntil: it works on the sequence of clock readings rather than a real clock; the 60-second sleep length is a hypothesis of `WaitIsBounded`.
- Unicode: case mapping is ASCII only. This affects `str.upper`, `lower`, the `ilike` comparison and `re.IGNORECASE` (which also folds the Kelvin sign onto K). `\d` is read as ASCII digits.
- The `%` and `_` wildcards of `ilike`: the term is compared as plain text.
- PartsCatalog.Step: `meta.update` merges the page's meta into the recorded one. The model replaces it, assuming pages carry all three keys.
- Search.FileItemOf: the stripped tag string is written back to the item, but it is never stored; only the file entry is modelled.
- Search.SearchFor: the JSON encoding of the result, including the literal `"[]"` for no terms, is left out. A result is a `SearchResult` value.
- The tag list of a repository object is a set here. The source turns a set into a list whose order is unspecified.
- RateManager.ForceLimitAsWritten: the depth bound is Python's default recursion limit of 1000. The exact frame count at which it raises depends on the caller's stack.

## Findings

| source | as written | input that shows it | evidently intended | confidence | as-written member | corrected member |
|---|---|---|---|---|---|---|
| libs/RateManager.py:106-112 | `force_ratelimit_reached` calls itself instead of setting `FORCE_LIMIT_REACHED` | any call, from any state | set the force flag so that the next `check_and_wait` waits for the reset | not executed | RateManager.ForceLimitAsWrittenRaises | RateManager.ForcedLimitHoldsUntilReset |
| crawler.py:136-141 | the license text and URL found by `get_license` are overwritten with the placeholder (which also reads "ontents") before the entry is built | a repository with a `.kicad_pcb` file whose `get_license` succeeds | record the license that was found, and the placeholder only when `get_license` raised | not executed | Crawler.VisitRepo, Crawler.LicenseLostAsWritten | Crawler.EntryOf, Crawler.VisitRepoIntended |

=== FILE: calendar.dfy ===
/** Proleptic Gregorian dates as the crawler uses them: whole days, months
    as (year, month) pairs, day arithmetic, and the monthly recurrence that
    drives the crawl. */
module Calendar {
  type MonthNumber = m: int | 1 <= m <= 12 witness 1

  datatype YearMonth = YearMonth(year: int, month: MonthNumber)

  datatype Date = Date(year: int, month: MonthNumber, day: int)

  predicate IsLeapYear(y: int) {
    y % 4 == 0 && (y % 100 != 0 || y % 400 == 0)
  }

  /** `calendar.monthrange(y, m)[1]`. */
  function DaysInMonth(y: int, m: MonthNumber): (n: int)
    ensures 28 <= n <= 31
    ensures n == 29 <==> m == 2 && IsLeapYear(y)
    ensures n == 28 <==> m == 2 && !IsLeapYear(y)
    ensures n == 30 <==> m in {4, 6, 9, 11}
  {
    if m == 2 then (if IsLeapYear(y) then 29 else 28)
    else if m == 4 || m == 6 || m == 9 || m == 11 then 30
    else 31
  }

  predicate ValidDate(d: Date) {
    1 <= d.day <= DaysInMonth(d.year, d.month)
  }

  function MonthOf(d: Date): YearMonth {
    YearMonth(d.year, d.month)
  }

  /** Months counted from year 0, so that consecutive months differ by 1. */
  function MonthIndex(ym: YearMonth): int {
    ym.year * 12 + ym.month - 1
  }

  function NextMonth(ym: YearMonth): (n: YearMonth)
    ensures MonthIndex(n) == MonthIndex(ym) + 1
  {
    if ym.month == 12 then YearMonth(ym.year + 1, 1) else YearMonth(ym.year, ym.month + 1)
  }

  /** Month indices determine months. */
  lemma MonthIndexInjective(a: YearMonth, b: YearMonth)
    requires MonthIndex(a) == MonthIndex(b)
    ensures a == b
  {
  }

  /** Chronological order of dates. */
  predicate DateLessOrEqual(a: Date, b: Date) {
    a.year < b.year
    || (a.year == b.year && (a.month < b.month || (a.month == b.month && a.day <= b.day)))
  }

  function NextDay(d: Date): (r: Date)
    requires ValidDate(d)
    ensures ValidDate(r)
  {
    if d.day < DaysInMonth(d.year, d.month) then d.(day := d.day + 1)
    else var n := NextMonth(MonthOf(d)); Date(n.year, n.month, 1)
  }

  /** `d + timedelta(days=n)`. */
  function AddDays(d: Date, n: nat): (r: Date)
    requires ValidDate(d)
    ensures ValidDate(r)
    decreases n
  {
    if n == 0 then d else AddDays(NextDay(d), n - 1)
  }

  lemma {:induction false} AddDaysSplit(d: Date, a: nat, b: nat)
    requires ValidDate(d)
    ensures AddDays(d, a + b) == AddDays(AddDays(d, a), b)
    decreases a
  {
    if a > 0 {
      AddDaysSplit(NextDay(d), a - 1, b);
    }
  }

  /** Adding days that stay inside the month only moves the day. */
  lemma {:induction false} AddDaysWithinMonth(d: Date, n: nat)
    requires ValidDate(d) && d.day + n <= DaysInMonth(d.year, d.month)
    ensures AddDays(d, n) == d.(day := d.day + n)
    decreases n
  {
    if n > 0 {
      AddDaysWithinMonth(NextDay(d), n - 1);
    }
  }

  /** The first of a month plus 31 days falls in the next month, on a day
      from 1 to 4 depending on the month's length. */
  lemma FirstPlus31(ym: YearMonth)
    ensures ValidDate(Date(ym.year, ym.month, 1))
    ensures MonthOf(AddDays(Date(ym.year, ym.month, 1), 31)) == NextMonth(ym)
    ensures AddDays(Date(ym.year, ym.month, 1), 31).day == 32 - DaysInMonth(ym.year, ym.month)
  {
    var first := Date(ym.year, ym.month, 1);
    var dim := DaysInMonth(ym.year, ym.month);
    var n := NextMonth(ym);
    AddDaysSplit(first, dim - 1, 32 - dim);
    AddDaysWithinMonth(first, dim - 1);
    var last := first.(day := dim);
    assert AddDays(last, 32 - dim) == AddDays(Date(n.year, n.month, 1), 31 - dim);
    AddDaysWithinMonth(Date(n.year, n.month, 1), 31 - dim);
  }

  /** The day range of a month's search slice: the first through the last
      day of the month. */
  function SliceBounds(ym: YearMonth): (b: (Date, Date))
    ensures ValidDate(b.0) && ValidDate(b.1)
    ensures MonthOf(b.0) == ym && MonthOf(b.1) == ym && b.0.day == 1
    ensures forall d: Date :: ValidDate(d) && MonthOf(d) == ym ==> DateLessOrEqual(b.0, d) && DateLessOrEqual(d, b.1)
  {
    (Date(ym.year, ym.month, 1), Date(ym.year, ym.month, DaysInMonth(ym.year, ym.month)))
  }

  /** Consecutive slices leave no gap: the day after one slice is the first
      day of the next. */
  lemma SlicesAreContiguous(ym: YearMonth)
    ensures NextDay(SliceBounds(ym).1) == SliceBounds(NextMonth(ym)).0
  {
  }

  /** `rrule(MONTHLY, dtstart=start, until=now)`: the months from `start`'s
      month on whose day `start.day` exists and is not after `now`. Months
      lacking that day are skipped; the first one past `now` ends the
      recurrence. */
  function MonthlyFrom(ym: YearMonth, day: int, now: Date): (ms: seq<YearMonth>)
    ensures forall i :: 0 <= i < |ms| ==> MonthIndex(ym) <= MonthIndex(ms[i]) <= MonthIndex(MonthOf(now))
    decreases MonthIndex(MonthOf(now)) - MonthIndex(ym)
  {
    if MonthIndex(ym) > MonthIndex(MonthOf(now)) then []
    else if day > DaysInMonth(ym.year, ym.month) then MonthlyFrom(NextMonth(ym), day, now)
    else if DateLessOrEqual(Date(ym.year, ym.month, day), now) then [ym] + MonthlyFrom(NextMonth(ym), day, now)
    else []
  }

  /** Each month follows the one before it. */
  predicate Consecutive(ms: seq<YearMonth>) {
    forall i :: 0 < i < |ms| ==> ms[i] == NextMonth(ms[i - 1])
  }

  /** For a day every month has, the recurrence visits every month from the
      start month to the last month containing that day on or before
      `now`, in order, without gaps. */
  lemma {:induction false} MonthlyIsConsecutive(ym: YearMonth, day: int, now: Date)
    requires 1 <= day <= 28
    ensures Consecutive(MonthlyFrom(ym, day, now))
    ensures |MonthlyFrom(ym, day, now)| > 0 ==> MonthlyFrom(ym, day, now)[0] == ym
    ensures |MonthlyFrom(ym, day, now)| > 0 <==> DateLessOrEqual(Date(ym.year, ym.month, day), now)
    ensures var ms := MonthlyFrom(ym, day, now); |ms| > 0 ==>
      && DateLessOrEqual(Date(ms[|ms| - 1].year, ms[|ms| - 1].month, day), now)
      && !DateLessOrEqual(Date(NextMonth(ms[|ms| - 1]).year, NextMonth(ms[|ms| - 1]).month, day), now)
    decreases MonthIndex(MonthOf(now)) - MonthIndex(ym)
  {
    if MonthIndex(ym) <= MonthIndex(MonthOf(now)) {
      var ms := MonthlyFrom(ym, day, now);
      if DateLessOrEqual(Date(ym.year, ym.month, day), now) {
        var rest := MonthlyFrom(NextMonth(ym), day, now);
        MonthlyIsConsecutive(NextMonth(ym), day, now);
        assert ms == [ym] + rest;
        forall i | 0 < i < |ms| ensures ms[i] == NextMonth(ms[i - 1]) {
          if i > 1 { assert ms[i] == rest[i - 1] && ms[i - 1] == rest[i - 2]; }
        }
      }
    } else {
      assert !DateLessOrEqual(Date(ym.year, ym.month, day), now);
    }
  }

  /** Consecutive months have strictly increasing indices. */
  lemma {:induction false} ConsecutiveIncreasing(ms: seq<YearMonth>)
    requires Consecutive(ms)
    ensures forall i, j :: 0 <= i < j < |ms| ==> MonthIndex(ms[i]) < MonthIndex(ms[j])
    decreases |ms|
  {
    if |ms| > 1 {
      var init := ms[..|ms| - 1];
      assert Consecutive(init) by {
        forall i | 0 < i < |init| ensures init[i] == NextMonth(init[i - 1]) {
          assert init[i] == ms[i] && init[i - 1] == ms[i - 1];
        }
      }
      ConsecutiveIncreasing(init);
      forall i, j | 0 <= i < j < |ms| ensures MonthIndex(ms[i]) < MonthIndex(ms[j]) {
        if j < |ms| - 1 {
          assert ms[i] == init[i] && ms[j] == init[j];
        } else if i < j - 1 {
          assert ms[i] == init[i] && ms[j - 1] == init[j - 1];
          assert MonthIndex(ms[i]) < MonthIndex(ms[j - 1]);
        }
      }
    }
  }
}

=== FILE: crawler.dfy ===
/** The GitHub crawler: month-sliced repository search, recording of
    `.kicad_pcb` download URLs, per-month checkpoints, and the rate-limit and
    abuse-detection pauses.

    The GitHub API is a parameter: `api(ym)` is what the search for month
    `ym` returns, including where its iteration raised. Pickle files are the
    values `Saved` passed in and out. */
module Crawler {
  import opened Wrappers
  import opened Text
  import opened Seqs
  import opened Calendar

  const KicadSuffix: string := ".kicad_pcb"
  const AbuseMarker: string := "You have triggered an abuse detection mechanism."
  const AbusePauseSeconds: nat := 300
  /** Extra seconds slept past the announced rate-limit reset. */
  const ResetGraceSeconds: int := 5
  /** The month a crawl without a checkpoint starts from. */
  const ColdStart: Date := Date(2015, 1, 1)
  const NoReadme: string := "Could not find readme in repository"
  const NoLicense: string :=
    "Could not find license.md in repository, please check for the license before using the contents of this repository for your project!"

  // ---------------------------------------------------------------------
  // Pauses

  /** `handle_github_exception`: an abuse-detection message counts and
      pauses for five minutes; any other error is ignored. */
  function HandleGithubException(abuseCount: nat, message: string): (r: (nat, nat))
    ensures AbuseMarker <= message ==> r == (abuseCount + 1, AbusePauseSeconds)
    ensures !(AbuseMarker <= message) ==> r == (abuseCount, 0)
  {
    if AbuseMarker <= message then (abuseCount + 1, AbusePauseSeconds) else (abuseCount, 0)
  }

  function AbuseCountOf(error: Option<string>): nat {
    if error.Some? && AbuseMarker <= error.value then 1 else 0
  }

  /** Handling an optional error adds exactly its abuse count. */
  lemma HandleOptionalError(abuseCount: nat, error: Option<string>)
    ensures error.Some? ==> HandleGithubException(abuseCount, error.value).0 == abuseCount + AbuseCountOf(error)
  {
  }

  datatype RateDecision = Proceed | Pause(seconds: int) | NegativeSleep

  /** `check_rate_limit`: below the safety margin, sleep until five seconds
      past the reset; `time.sleep` rejects a negative length. */
  function CheckRateLimit(remaining: int, safety: int, resetTime: int, now: int): (d: RateDecision)
    ensures d.Proceed? <==> remaining >= safety
    ensures d.Pause? ==> d.seconds >= 0 && now + d.seconds == resetTime + ResetGraceSeconds
    ensures d.NegativeSleep? <==> remaining < safety && resetTime + ResetGraceSeconds < now
  {
    if remaining >= safety then Proceed
    else if resetTime - now + ResetGraceSeconds < 0 then NegativeSleep
    else Pause(resetTime - now + ResetGraceSeconds)
  }

  // ---------------------------------------------------------------------
  // What the API returns

  /** A file of the README/LICENSE search. */
  datatype InfoFile = InfoFile(name: string, downloadUrl: string, content: string)

  /** One repository of a month's search, with what the follow-up requests
      return. `license` is `None` when `get_license` raises; `codeError`
      and `infoError` are the messages of a `GithubException` raised after
      the listed files. */
  datatype RepoHit = RepoHit(
    url: string,
    name: string,
    description: Option<string>,
    stars: int,
    forks: int,
    license: Option<(string, string)>,
    codeUrls: seq<string>,
    codeError: Option<string>,
    infoFiles: seq<InfoFile>,
    infoError: Option<string>)

  /** A month's search: the reported total, the repositories iterated before
      the end or an error, and that error's message. */
  datatype MonthResult = MonthResult(totalCount: int, hits: seq<RepoHit>, searchError: Option<string>)

  /** A recorded repository. */
  datatype RepoEntry = RepoEntry(
    url: string,
    name: string,
    description: Option<string>,
    readme: string,
    readmeUrl: string,
    license: string,
    licenseUrl: string,
    kicadUrls: seq<string>,
    stars: int,
    forks: int)

  // ---------------------------------------------------------------------
  // One repository

  predicate IsKicadUrl(url: string) {
    IsSuffix(KicadSuffix, url)
  }

  /** The download URLs kept for a repository. */
  function KicadUrls(h: RepoHit): (urls: seq<string>)
    ensures forall i :: 0 <= i < |urls| ==> IsKicadUrl(urls[i]) && urls[i] in h.codeUrls
    ensures forall i :: 0 <= i < |h.codeUrls| && IsKicadUrl(h.codeUrls[i]) ==> h.codeUrls[i] in urls
    ensures IsSubsequence(urls, h.codeUrls)
    ensures forall x :: multiset(urls)[x] == if IsKicadUrl(x) then multiset(h.codeUrls)[x] else 0
  {
    FilterIsSubsequence(h.codeUrls, IsKicadUrl);
    FilterMultiset(h.codeUrls, IsKicadUrl);
    Filter(h.codeUrls, IsKicadUrl)
  }

  predicate IsReadme(f: InfoFile) {
    Lower(f.name) == "readme.md"
  }

  /** The readme text and URL: the last file named `readme.md` in any case,
      or the defaults when there is none or the listing raised. */
  function Readme(h: RepoHit): (r: (string, string))
    ensures h.infoError.Some? ==> r == (NoReadme, "")
    ensures h.infoError.None? && (forall i :: 0 <= i < |h.infoFiles| ==> !IsReadme(h.infoFiles[i])) ==> r == (NoReadme, "")
    ensures h.infoError.None? && (exists i :: 0 <= i < |h.infoFiles| && IsReadme(h.infoFiles[i])) ==>
      exists i :: 0 <= i < |h.infoFiles| && IsReadme(h.infoFiles[i])
        && r == (h.infoFiles[i].content, h.infoFiles[i].downloadUrl)
        && forall j :: i < j < |h.infoFiles| ==> !IsReadme(h.infoFiles[j])
  {
    if h.infoError.Some? then (NoReadme, "") else LastReadme(h.infoFiles)
  }

  function LastReadme(files: seq<InfoFile>): (r: (string, string))
    ensures (forall i :: 0 <= i < |files| ==> !IsReadme(files[i])) ==> r == (NoReadme, "")
    ensures (exists i :: 0 <= i < |files| && IsReadme(files[i])) ==>
      exists i :: 0 <= i < |files| && IsReadme(files[i]) && r == (files[i].content, files[i].downloadUrl)
        && forall j :: i < j < |files| ==> !IsReadme(files[j])
    decreases |files|
  {
    if |files| == 0 then (NoReadme, "")
    else
      var last := files[|files| - 1];
      if IsReadme(last) then (last.content, last.downloadUrl)
      else
        var r := LastReadme(files[..|files| - 1]);
        assert forall i :: 0 <= i < |files| - 1 ==> files[..|files| - 1][i] == files[i];
        r
  }

  /** The recorded license: what `get_license` returned, or the default
      when it raised. */
  function License(h: RepoHit): (r: (string, string))
    ensures h.license.Some? ==> r == h.license.value
    ensures h.license.None? ==> r == (NoLicense, "")
  {
    h.license.GetOr((NoLicense, ""))
  }

  /** The entry recorded for a repository with `.kicad_pcb` files. */
  function EntryOf(h: RepoHit, urls: seq<string>): (e: RepoEntry)
    ensures e.url == h.url && e.name == h.name && e.description == h.description
    ensures e.stars == h.stars && e.forks == h.forks && e.kicadUrls == urls
    ensures (e.readme, e.readmeUrl) == Readme(h)
    ensures (e.license, e.licenseUrl) == License(h)
  {
    RepoEntry(h.url, h.name, h.description, Readme(h).0, Readme(h).1,
              License(h).0, License(h).1, urls, h.stars, h.forks)
  }

  /** What the code records as the license: the text it assigns after the
      file search, which replaces whatever `get_license` returned. */
  const NoLicenseRecorded: string :=
    "Could not find license.md in repository, please check for the license before using the ontents of this repository for your project!"

  /** The entry the code records: the repository's fields, readme and
      URLs, but always the placeholder license with no URL. */
  function EntryAsWritten(h: RepoHit, urls: seq<string>): (e: RepoEntry)
    ensures e.url == h.url && e.name == h.name && e.description == h.description
    ensures e.stars == h.stars && e.forks == h.forks && e.kicadUrls == urls
    ensures (e.readme, e.readmeUrl) == Readme(h)
    ensures e.license == NoLicenseRecorded && e.licenseUrl == ""
  {
    EntryOf(h, urls).(license := NoLicenseRecorded, licenseUrl := "")
  }

  /** As written, a repository's license never reaches its entry: a
      repository whose `get_license` succeeded is recorded with the
      placeholder text and no URL. */
  lemma LicenseLostAsWritten(h: RepoHit, urls: seq<string>)
    requires h.license.Some? && h.license.value != (NoLicenseRecorded, "")
    ensures EntryAsWritten(h, urls).license == NoLicenseRecorded && EntryAsWritten(h, urls).licenseUrl == ""
    ensures (EntryAsWritten(h, urls).license, EntryAsWritten(h, urls).licenseUrl) != h.license.value
    ensures (EntryOf(h, urls).license, EntryOf(h, urls).licenseUrl) == h.license.value
  {
  }

  datatype CrawlState = CrawlState(repos: seq<RepoEntry>, reposSearched: int, filesFound: int, abuseCount: nat)

  /** Visiting one repository: count it, keep its `.kicad_pcb` URLs, count
      abuse errors, and record it, with the placeholder license, when it
      has at least one such file. */
  function VisitRepo(s: CrawlState, h: RepoHit): (r: CrawlState)
    ensures r.reposSearched == s.reposSearched + 1
    ensures r.filesFound == s.filesFound + |KicadUrls(h)|
    ensures |KicadUrls(h)| == 0 ==> r.repos == s.repos
    ensures |KicadUrls(h)| > 0 ==> r.repos == s.repos + [EntryAsWritten(h, KicadUrls(h))]
    ensures |KicadUrls(h)| > 0 ==> r.repos[|s.repos|].license == NoLicenseRecorded
    ensures r.abuseCount == s.abuseCount + AbuseCountOf(h.codeError)
      + (if |KicadUrls(h)| > 0 then AbuseCountOf(h.infoError) else 0)
  {
    var urls := KicadUrls(h);
    var count := s.abuseCount + AbuseCountOf(h.codeError);
    if |urls| == 0 then CrawlState(s.repos, s.reposSearched + 1, s.filesFound, count)
    else CrawlState(s.repos + [EntryAsWritten(h, urls)], s.reposSearched + 1, s.filesFound + |urls|,
                    count + AbuseCountOf(h.infoError))
  }

  /** The visit with the license that was found: the same counters as
      `VisitRepo`, and the same entry except for its license. */
  function VisitRepoIntended(s: CrawlState, h: RepoHit): (r: CrawlState)
    ensures r.reposSearched == VisitRepo(s, h).reposSearched
    ensures r.filesFound == VisitRepo(s, h).filesFound
    ensures r.abuseCount == VisitRepo(s, h).abuseCount
    ensures |r.repos| == |VisitRepo(s, h).repos| && r.repos[..|s.repos|] == s.repos
    ensures |KicadUrls(h)| > 0 ==>
      && (r.repos[|s.repos|].license, r.repos[|s.repos|].licenseUrl) == License(h)
      && r.repos[|s.repos|].(license := NoLicenseRecorded, licenseUrl := "") == VisitRepo(s, h).repos[|s.repos|]
  {
    var r := VisitRepo(s, h);
    var urls := KicadUrls(h);
    if |urls| == 0 then r else r.(repos := s.repos + [EntryOf(h, urls)])
  }

  function VisitRepos(s: CrawlState, hits: seq<RepoHit>): CrawlState
    decreases |hits|
  {
    if |hits| == 0 then s else VisitRepos(VisitRepo(s, hits[0]), hits[1..])
  }

  /** One month: visit its repositories, then count the search's error. The
      reported total only ever produces a warning. */
  function CrawlMonth(s: CrawlState, m: MonthResult): CrawlState {
    var t := VisitRepos(s, m.hits);
    t.(abuseCount := t.abuseCount + AbuseCountOf(m.searchError))
  }

  /** A month with 1000 or more results is crawled like any other. */
  lemma TotalCountOnlyWarns(s: CrawlState, m: MonthResult, total: int)
    ensures CrawlMonth(s, m.(totalCount := total)) == CrawlMonth(s, m)
  {
  }

  // ---------------------------------------------------------------------
  // Invariants of the recorded state

  function TotalUrls(repos: seq<RepoEntry>): nat
    decreases |repos|
  {
    if |repos| == 0 then 0 else TotalUrls(repos[..|repos| - 1]) + |repos[|repos| - 1].kicadUrls|
  }

  /** Every recorded repository has `.kicad_pcb` URLs only, and at least
      one. */
  predicate WellRecorded(repos: seq<RepoEntry>) {
    forall i :: 0 <= i < |repos| ==>
      (|repos[i].kicadUrls| > 0 && forall j :: 0 <= j < |repos[i].kicadUrls| ==> IsKicadUrl(repos[i].kicadUrls[j]))
  }

  /** The counters move in step with the recorded data: `files_found` less
      the recorded URLs is unchanged, `repos_searched` grows by one per
      repository, recorded entries are only appended, and they stay well
      formed. */
  lemma {:induction false} VisitReposInvariant(s: CrawlState, hits: seq<RepoHit>)
    requires WellRecorded(s.repos)
    ensures var t := VisitRepos(s, hits);
      && t.filesFound - TotalUrls(t.repos) == s.filesFound - TotalUrls(s.repos)
      && t.reposSearched == s.reposSearched + |hits|
      && s.repos <= t.repos
      && |t.repos| - |s.repos| <= |hits|
      && WellRecorded(t.repos)
      && t.abuseCount >= s.abuseCount
    decreases |hits|
  {
    if |hits| > 0 {
      var s1 := VisitRepo(s, hits[0]);
      var urls := KicadUrls(hits[0]);
      if |urls| > 0 {
        var e := EntryAsWritten(hits[0], urls);
        assert (s.repos + [e])[..|s.repos|] == s.repos;
        assert WellRecorded(s1.repos) by {
          forall i | 0 <= i < |s1.repos|
            ensures |s1.repos[i].kicadUrls| > 0
              && forall j :: 0 <= j < |s1.repos[i].kicadUrls| ==> IsKicadUrl(s1.repos[i].kicadUrls[j])
          {
            if i < |s.repos| { assert s1.repos[i] == s.repos[i]; }
          }
        }
      }
      VisitReposInvariant(s1, hits[1..]);
    }
  }

  // ---------------------------------------------------------------------
  // Checkpoints and the month loop

  /** The status file: the last month completed and the counters. */
  datatype Checkpoint = Checkpoint(lastMonthCompleted: YearMonth, reposSearched: int, filesFound: int)

  /** Everything written at a checkpoint: the status and the repository
      list. */
  datatype Saved = Saved(status: Checkpoint, repos: seq<RepoEntry>)

  function SaveOf(s: CrawlState, ym: YearMonth): (w: Saved)
    ensures w.status.lastMonthCompleted == ym && w.repos == s.repos
    ensures w.status.reposSearched == s.reposSearched && w.status.filesFound == s.filesFound
  {
    Saved(Checkpoint(ym, s.reposSearched, s.filesFound), s.repos)
  }

  /** Crawl the months in order, saving a checkpoint after each. */
  function CrawlMonths(s: CrawlState, months: seq<YearMonth>, api: YearMonth -> MonthResult): (r: (CrawlState, seq<Saved>))
    ensures |r.1| == |months|
    ensures forall i :: 0 <= i < |months| ==> r.1[i].status.lastMonthCompleted == months[i]
    ensures |months| > 0 ==> r.1[|months| - 1] == SaveOf(r.0, months[|months| - 1])
    ensures |months| == 0 ==> r.0 == s
    decreases |months|
  {
    if |months| == 0 then (s, [])
    else
      var s1 := CrawlMonth(s, api(months[0]));
      var rest := CrawlMonths(s1, months[1..], api);
      (rest.0, [SaveOf(s1, months[0])] + rest.1)
  }

  /** The checkpoint written after month `i` holds exactly the state the
      crawl had reached after months `0..i`: resuming from it continues the
      crawl where it stood. */
  lemma {:induction false} CheckpointIsPrefixState(s: CrawlState, months: seq<YearMonth>, api: YearMonth -> MonthResult, i: nat)
    requires i < |months|
    ensures CrawlMonths(s, months, api).1[i] == SaveOf(CrawlMonths(s, months[..i + 1], api).0, months[i])
    decreases i
  {
    var s1 := CrawlMonth(s, api(months[0]));
    if i == 0 {
      assert months[..1][1..] == [];
      assert CrawlMonths(s, months[..1], api).0 == CrawlMonths(s1, [], api).0;
    } else {
      CheckpointIsPrefixState(s1, months[1..], api, i - 1);
      assert months[..i + 1][1..] == months[1..][..i];
      assert months[..i + 1][0] == months[0];
    }
  }

  /** One month keeps the file balance and extends the list with
      well-formed entries. */
  lemma CrawlMonthKeepsBalance(s: CrawlState, m: MonthResult)
    requires WellRecorded(s.repos)
    ensures var t := CrawlMonth(s, m);
      && t.filesFound - TotalUrls(t.repos) == s.filesFound - TotalUrls(s.repos)
      && WellRecorded(t.repos)
      && s.repos <= t.repos
  {
    VisitReposInvariant(s, m.hits);
  }

  /** A saved state keeps the file balance `balance`, holds well-formed
      entries only, and extends `base`. */
  predicate KeepsBalance(w: Saved, balance: int, base: seq<RepoEntry>) {
    && w.status.filesFound - TotalUrls(w.repos) == balance
    && WellRecorded(w.repos)
    && base <= w.repos
  }

  /** The final state of the month loop keeps the file balance of the
      starting state, records only well-formed entries, and extends the
      starting repository list. */
  lemma {:induction false} FinalKeepsBalance(s: CrawlState, months: seq<YearMonth>, api: YearMonth -> MonthResult)
    requires WellRecorded(s.repos)
    ensures var t := CrawlMonths(s, months, api).0;
      && t.filesFound - TotalUrls(t.repos) == s.filesFound - TotalUrls(s.repos)
      && WellRecorded(t.repos)
      && s.repos <= t.repos
    decreases |months|
  {
    if |months| > 0 {
      CrawlMonthKeepsBalance(s, api(months[0]));
      FinalKeepsBalance(CrawlMonth(s, api(months[0])), months[1..], api);
    }
  }

  /** So does every checkpoint. */
  lemma {:induction false} CheckpointKeepsBalance(s: CrawlState, months: seq<YearMonth>, api: YearMonth -> MonthResult, i: nat)
    requires WellRecorded(s.repos) && i < |months|
    ensures KeepsBalance(CrawlMonths(s, months, api).1[i], s.filesFound - TotalUrls(s.repos), s.repos)
    decreases i
  {
    var s1 := CrawlMonth(s, api(months[0]));
    CrawlMonthKeepsBalance(s, api(months[0]));
    if i > 0 {
      CheckpointKeepsBalance(s1, months[1..], api, i - 1);
      assert CrawlMonths(s, months, api).1[i] == CrawlMonths(s1, months[1..], api).1[i - 1];
    }
  }

  /** Each checkpoint's repository list extends the one before. */
  lemma {:induction false} CheckpointExtends(s: CrawlState, months: seq<YearMonth>, api: YearMonth -> MonthResult, i: nat)
    requires WellRecorded(s.repos) && 0 < i < |months|
    ensures CrawlMonths(s, months, api).1[i - 1].repos <= CrawlMonths(s, months, api).1[i].repos
    decreases i
  {
    var s1 := CrawlMonth(s, api(months[0]));
    CrawlMonthKeepsBalance(s, api(months[0]));
    var saves := CrawlMonths(s, months, api).1;
    var rest := CrawlMonths(s1, months[1..], api).1;
    assert saves[i] == rest[i - 1];
    if i > 1 {
      CheckpointExtends(s1, months[1..], api, i - 1);
      assert saves[i - 1] == rest[i - 2];
    } else {
      CrawlMonthKeepsBalance(s1, api(months[1]));
      assert rest[0] == SaveOf(CrawlMonth(s1, api(months[1])), months[1]);
    }
  }

  /** The start of a crawl: the first day of the month after the checkpoint
      plus 31 days from it, with the saved counters and list, when both
      files load; 2015-01-01 with nothing otherwise. */
  function Resume(status: Option<Checkpoint>, savedRepos: Option<seq<RepoEntry>>): (r: (Date, CrawlState))
    ensures ValidDate(r.0)
    ensures status.Some? && savedRepos.Some? ==>
      && MonthOf(r.0) == NextMonth(status.value.lastMonthCompleted)
      && 1 <= r.0.day <= 4
      && r.1 == CrawlState(savedRepos.value, status.value.reposSearched, status.value.filesFound, 0)
    ensures status.None? || savedRepos.None? ==> r == (ColdStart, CrawlState([], 0, 0, 0))
  {
    if status.Some? && savedRepos.Some? then
      var ym := status.value.lastMonthCompleted;
      FirstPlus31(ym);
      (AddDays(Date(ym.year, ym.month, 1), 31),
       CrawlState(savedRepos.value, status.value.reposSearched, status.value.filesFound, 0))
    else
      (ColdStart, CrawlState([], 0, 0, 0))
  }

  datatype CrawlError = NoMonthCrawled

  /** A completed crawl: the months visited, the final state, and every
      checkpoint written, the last one twice. */
  datatype CrawlRun = CrawlRun(months: seq<YearMonth>, final: CrawlState, saves: seq<Saved>)

  /** The months a crawl visits. */
  function CrawlMonthsFrom(start: Date, now: Date): seq<YearMonth> {
    MonthlyFrom(MonthOf(start), start.day, now)
  }

  /** `main`: resume, crawl every month up to `now` with a checkpoint after
      each, then save once more. With no month to crawl the final save finds
      no month and raises. */
  function Crawl(status: Option<Checkpoint>, savedRepos: Option<seq<RepoEntry>>, now: Date,
                 api: YearMonth -> MonthResult): (r: Result<CrawlRun, CrawlError>)
    ensures var start := Resume(status, savedRepos).0;
      r.Failure? <==> |CrawlMonthsFrom(start, now)| == 0
    ensures r.Success? ==>
      && r.value.months == CrawlMonthsFrom(Resume(status, savedRepos).0, now)
      && |r.value.saves| == |r.value.months| + 1
      && (forall i :: 0 <= i < |r.value.months| ==> r.value.saves[i].status.lastMonthCompleted == r.value.months[i])
      && r.value.saves[|r.value.saves| - 1] == r.value.saves[|r.value.saves| - 2]
      && r.value.saves[|r.value.saves| - 1] == SaveOf(r.value.final, r.value.months[|r.value.months| - 1])
  {
    var (start, s) := Resume(status, savedRepos);
    var months := CrawlMonthsFrom(start, now);
    if |months| == 0 then Failure(NoMonthCrawled)
    else
      var (final, saves) := CrawlMonths(s, months, api);
      var last := SaveOf(final, months[|months| - 1]);
      Success(CrawlRun(months, final, saves + [last]))
  }

  /** A resumed crawl starts with the month after the checkpoint (when that
      month's start day has come) and visits consecutive, strictly
      increasing months; a cold start begins with 2015-01. */
  lemma CrawlVisitsMonthsInOrder(status: Option<Checkpoint>, savedRepos: Option<seq<RepoEntry>>, now: Date,
                                 api: YearMonth -> MonthResult)
    requires Crawl(status, savedRepos, now, api).Success?
    ensures var months := Crawl(status, savedRepos, now, api).value.months;
      && Consecutive(months)
      && (forall i, j :: 0 <= i < j < |months| ==> MonthIndex(months[i]) < MonthIndex(months[j]))
      && (status.Some? && savedRepos.Some? ==> months[0] == NextMonth(status.value.lastMonthCompleted))
      && (status.None? || savedRepos.None? ==> months[0] == YearMonth(2015, 1))
  {
    var start := Resume(status, savedRepos).0;
    MonthlyIsConsecutive(MonthOf(start), start.day, now);
    ConsecutiveIncreasing(CrawlMonthsFrom(start, now));
  }

  /** The saves of a cold crawl: its checkpoints from the empty state,
      then the last one again. */
  lemma ColdCrawlSaves(now: Date, api: YearMonth -> MonthResult)
    requires Crawl(None, None, now, api).Success?
    ensures var months := CrawlMonthsFrom(ColdStart, now);
      var r := CrawlMonths(CrawlState([], 0, 0, 0), months, api);
      && |months| > 0
      && Crawl(None, None, now, api).value.saves == r.1 + [SaveOf(r.0, months[|months| - 1])]
  {
    assert Resume(None, None) == (ColdStart, CrawlState([], 0, 0, 0));
  }

  /** Every checkpoint, and the final save, keeps the starting balance. */
  lemma SavesKeepBalance(s: CrawlState, months: seq<YearMonth>, api: YearMonth -> MonthResult, i: nat)
    requires WellRecorded(s.repos) && 0 < |months| && i <= |months|
    ensures var r := CrawlMonths(s, months, api);
      var w := (r.1 + [SaveOf(r.0, months[|months| - 1])])[i];
      w.status.filesFound - TotalUrls(w.repos) == s.filesFound - TotalUrls(s.repos) && WellRecorded(w.repos)
  {
    var r := CrawlMonths(s, months, api);
    if i < |months| {
      CheckpointKeepsBalance(s, months, api, i);
      assert (r.1 + [SaveOf(r.0, months[|months| - 1])])[i] == r.1[i];
    } else {
      FinalKeepsBalance(s, months, api);
    }
  }

  /** Without a checkpoint, every saved status counts exactly the URLs of
      the repository list saved with it, and every saved entry holds only
      `.kicad_pcb` URLs. */
  lemma ColdCrawlCountsRecordedFiles(now: Date, api: YearMonth -> MonthResult)
    requires Crawl(None, None, now, api).Success?
    ensures var run := Crawl(None, None, now, api).value;
      forall i :: 0 <= i < |run.saves| ==>
        run.saves[i].status.filesFound == TotalUrls(run.saves[i].repos) && WellRecorded(run.saves[i].repos)
  {
    var s0 := CrawlState([], 0, 0, 0);
    var months := CrawlMonthsFrom(ColdStart, now);
    var run := Crawl(None, None, now, api).value;
    ColdCrawlSaves(now, api);
    forall i | 0 <= i < |run.saves|
      ensures run.saves[i].status.filesFound == TotalUrls(run.saves[i].repos) && WellRecorded(run.saves[i].repos)
    {
      SavesKeepBalance(s0, months, api, i);
    }
  }
}

=== FILE: kicad_parser.dfy ===
/** Post-processing of the footprints ("modules") of a KiCad board: the
    reference and value are read from the free-text fields, duplicates of a
    (footprint, value) pair are dropped, common symbols (resistors,
    connectors, ...) are removed by reference and value patterns and by an
    exclusion list, and the survivors become items.

    The KiCad file parser itself is not modelled: its list of footprints is
    the input. The regular expressions of the source are written out as
    predicates, with ASCII digits and ASCII case folding. */
module KicadParser {
  import opened Wrappers
  import opened Text
  import opened Seqs
  import Models

  /** A free-text field of a footprint: its kind ("reference", "value", ...)
      and its text. */
  datatype FpText = FpText(kind: string, text: string)

  /** A footprint as the KiCad parser returns it; absent attributes are
      `None`. */
  datatype Footprint = Footprint(
    name: string,
    descr: Option<string>,
    tags: Option<string>,
    fpText: Option<seq<FpText>>)

  /** The fields extracted from one footprint. */
  datatype ModuleEntry = ModuleEntry(
    name: string,
    descr: Option<string>,
    tags: Option<string>,
    reference: Option<string>,
    value: Option<string>)

  /** Why parsing a board fails: `re.match` applied to a missing field
      (`TypeError`), the exclusion list needed but never read (`NameError`),
      or nothing left after cleaning (`TypeError`). */
  datatype ParseError = FieldNotAString | ExclusionListMissing | ModulesEmpty

  // ---------------------------------------------------------------------
  // Field extraction

  /** Position `i` holds the last field of kind `kind`. */
  ghost predicate IsLastOfKind(texts: seq<FpText>, kind: string, i: int) {
    && 0 <= i < |texts|
    && texts[i].kind == kind
    && forall j :: i < j < |texts| ==> texts[j].kind != kind
  }

  /** The text of the last field of kind `kind`, if any. */
  ghost predicate IsLastText(texts: seq<FpText>, kind: string, r: Option<string>) {
    && (r.None? <==> forall i :: 0 <= i < |texts| ==> texts[i].kind != kind)
    && (r.Some? ==> exists i :: IsLastOfKind(texts, kind, i) && texts[i].text == r.value)
  }

  /** Reference and value after scanning the fields in order, each later
      field of the same kind overwriting the earlier one. */
  function ScanFields(texts: seq<FpText>): (f: (Option<string>, Option<string>))
    ensures IsLastText(texts, "reference", f.0)
    ensures IsLastText(texts, "value", f.1)
    decreases |texts|
  {
    if |texts| == 0 then (None, None)
    else
      var init := texts[..|texts| - 1];
      var t := texts[|texts| - 1];
      var prev := ScanFields(init);
      LastTextExtend(init, t, "reference", prev.0);
      LastTextExtend(init, t, "value", prev.1);
      assert init + [t] == texts;
      if t.kind == "reference" then (Some(t.text), prev.1)
      else if t.kind == "value" then (prev.0, Some(t.text))
      else prev
  }

  /** Appending one field: it becomes the last of its kind, and the last of
      every other kind is unchanged. */
  lemma LastTextExtend(init: seq<FpText>, t: FpText, kind: string, r: Option<string>)
    requires IsLastText(init, kind, r)
    ensures t.kind == kind ==> IsLastText(init + [t], kind, Some(t.text))
    ensures t.kind != kind ==> IsLastText(init + [t], kind, r)
  {
    var texts := init + [t];
    if t.kind == kind {
      assert IsLastOfKind(texts, kind, |init|);
    } else {
      if r.Some? {
        var i :| IsLastOfKind(init, kind, i) && init[i].text == r.value;
        assert IsLastOfKind(texts, kind, i);
      }
      if r.None? {
        assert forall i :: 0 <= i < |texts| ==> texts[i].kind != kind by {
          forall i | 0 <= i < |texts| ensures texts[i].kind != kind {
            if i < |init| { assert texts[i] == init[i]; }
          }
        }
      }
      if r.Some? {
        assert exists i :: 0 <= i < |texts| && texts[i].kind == kind by {
          var i :| IsLastOfKind(init, kind, i) && init[i].text == r.value;
          assert texts[i] == init[i];
        }
      }
    }
  }

  /** The extracted entry of one footprint. */
  function Extract(fp: Footprint): ModuleEntry {
    var fields := if fp.fpText.Some? then ScanFields(fp.fpText.value) else (None, None);
    ModuleEntry(fp.name, fp.descr, fp.tags, fields.0, fields.1)
  }

  /** Reference and value come from the last field of their kind; other
      kinds are ignored and a missing kind leaves the field `None`. */
  lemma ExtractTakesLastField(fp: Footprint)
    ensures Extract(fp).name == fp.name && Extract(fp).descr == fp.descr && Extract(fp).tags == fp.tags
    ensures IsLastText(fp.fpText.GetOr([]), "reference", Extract(fp).reference)
    ensures IsLastText(fp.fpText.GetOr([]), "value", Extract(fp).value)
  {
  }

  function ExtractAll(board: seq<Footprint>): (ms: seq<ModuleEntry>)
    ensures |ms| == |board|
    ensures forall i :: 0 <= i < |board| ==> ms[i] == Extract(board[i])
  {
    seq(|board|, i requires 0 <= i < |board| => Extract(board[i]))
  }

  // ---------------------------------------------------------------------
  // Deduplication

  function Key(m: ModuleEntry): (string, Option<string>) {
    (m.name, m.value)
  }

  predicate KeysDistinct(ms: seq<ModuleEntry>) {
    forall i, j :: 0 <= i < j < |ms| ==> Key(ms[i]) != Key(ms[j])
  }

  /** No earlier entry has the same key as position `i`. */
  ghost predicate IsFirstOfKey(ms: seq<ModuleEntry>, i: int) {
    0 <= i < |ms| && forall j :: 0 <= j < i ==> Key(ms[j]) != Key(ms[i])
  }

  /** The deduplication loop: keep an entry when its key has not been seen,
      and remember the key. */
  function DedupFrom(ms: seq<ModuleEntry>, seen: seq<(string, Option<string>)>): seq<ModuleEntry>
    decreases |ms|
  {
    if |ms| == 0 then []
    else if Key(ms[0]) in seen then DedupFrom(ms[1..], seen)
    else [ms[0]] + DedupFrom(ms[1..], seen + [Key(ms[0])])
  }

  function Deduplicate(ms: seq<ModuleEntry>): seq<ModuleEntry> {
    DedupFrom(ms, [])
  }

  /** A first occurrence after the head is a first occurrence in the tail. */
  lemma FirstOfKeyInTail(ms: seq<ModuleEntry>, i: int)
    requires IsFirstOfKey(ms, i) && i > 0
    ensures IsFirstOfKey(ms[1..], i - 1)
  {
    forall j | 0 <= j < i - 1 ensures Key(ms[1..][j]) != Key(ms[1..][i - 1]) {
      assert ms[1..][j] == ms[j + 1];
    }
  }

  /** A first occurrence in the tail whose key differs from the head's is a
      first occurrence in the whole. */
  lemma FirstOfKeyFromTail(ms: seq<ModuleEntry>, i: int)
    requires |ms| > 0 && IsFirstOfKey(ms[1..], i) && Key(ms[0]) != Key(ms[1..][i])
    ensures IsFirstOfKey(ms, i + 1)
  {
    forall j | 0 <= j < i + 1 ensures Key(ms[j]) != Key(ms[i + 1]) {
      if j > 0 { assert ms[j] == ms[1..][j - 1]; }
    }
  }

  /** The loop keeps no entry whose key was seen before it started. */
  lemma {:induction false} DedupFromUnseen(ms: seq<ModuleEntry>, seen: seq<(string, Option<string>)>)
    ensures forall k :: 0 <= k < |DedupFrom(ms, seen)| ==> Key(DedupFrom(ms, seen)[k]) !in seen
    decreases |ms|
  {
    if |ms| > 0 {
      var k0 := Key(ms[0]);
      if k0 in seen {
        DedupFromUnseen(ms[1..], seen);
      } else {
        var r := DedupFrom(ms[1..], seen + [k0]);
        DedupFromUnseen(ms[1..], seen + [k0]);
        var out := [ms[0]] + r;
        assert DedupFrom(ms, seen) == out;
        forall k | 0 <= k < |out| ensures Key(out[k]) !in seen {
          if k > 0 { assert out[k] == r[k - 1]; }
        }
      }
    }
  }

  /** The loop's output has pairwise distinct keys. */
  lemma {:induction false} DedupFromDistinctKeys(ms: seq<ModuleEntry>, seen: seq<(string, Option<string>)>)
    ensures KeysDistinct(DedupFrom(ms, seen))
    decreases |ms|
  {
    if |ms| > 0 {
      var k0 := Key(ms[0]);
      if k0 in seen {
        DedupFromDistinctKeys(ms[1..], seen);
      } else {
        var seen' := seen + [k0];
        var r := DedupFrom(ms[1..], seen');
        DedupFromDistinctKeys(ms[1..], seen');
        DedupFromUnseen(ms[1..], seen');
        var out := [ms[0]] + r;
        assert DedupFrom(ms, seen) == out;
        forall i, j | 0 <= i < j < |out| ensures Key(out[i]) != Key(out[j]) {
          if i == 0 {
            assert out[j] == r[j - 1];
            assert Key(r[j - 1]) !in seen';
          } else {
            assert out[i] == r[i - 1] && out[j] == r[j - 1];
          }
        }
      }
    }
  }

  /** Every first occurrence of a key not yet seen is kept. */
  lemma {:induction false} DedupFromKeepsEveryFirst(ms: seq<ModuleEntry>, seen: seq<(string, Option<string>)>)
    ensures forall i :: IsFirstOfKey(ms, i) && Key(ms[i]) !in seen ==> ms[i] in DedupFrom(ms, seen)
    decreases |ms|
  {
    if |ms| > 0 {
      var k0 := Key(ms[0]);
      var seen' := if k0 in seen then seen else seen + [k0];
      DedupFromKeepsEveryFirst(ms[1..], seen');
      var r := DedupFrom(ms[1..], seen');
      assert DedupFrom(ms, seen) == if k0 in seen then r else [ms[0]] + r;
      forall i | IsFirstOfKey(ms, i) && Key(ms[i]) !in seen
        ensures ms[i] in DedupFrom(ms, seen)
      {
        if i > 0 {
          assert Key(ms[0]) != Key(ms[i]);
          FirstOfKeyInTail(ms, i);
          assert ms[1..][i - 1] == ms[i];
        }
      }
    }
  }

  /** `e` is the first occurrence of its key in `ms`. */
  ghost predicate IsFirstEntry(ms: seq<ModuleEntry>, e: ModuleEntry) {
    exists i :: IsFirstOfKey(ms, i) && ms[i] == e
  }

  /** Every entry of `out` is the first occurrence of its key in `ms`. */
  ghost predicate OnlyFirsts(ms: seq<ModuleEntry>, out: seq<ModuleEntry>) {
    forall k :: 0 <= k < |out| ==> IsFirstEntry(ms, out[k])
  }

  /** Entries whose keys differ from the head's stay first occurrences
      when the head is put back. */
  lemma OnlyFirstsBehindHead(ms: seq<ModuleEntry>, r: seq<ModuleEntry>)
    requires |ms| > 0 && OnlyFirsts(ms[1..], r)
    requires forall k :: 0 <= k < |r| ==> Key(r[k]) != Key(ms[0])
    ensures OnlyFirsts(ms, r)
  {
    forall k | 0 <= k < |r|
      ensures IsFirstEntry(ms, r[k])
    {
      var e := r[k];
      var i' :| IsFirstOfKey(ms[1..], i') && ms[1..][i'] == e;
      FirstOfKeyFromTail(ms, i');
      assert ms[i' + 1] == r[k];
    }
  }

  /** The head itself is always a first occurrence. */
  lemma OnlyFirstsWithHead(ms: seq<ModuleEntry>, r: seq<ModuleEntry>)
    requires |ms| > 0 && OnlyFirsts(ms, r)
    ensures OnlyFirsts(ms, [ms[0]] + r)
  {
    var out := [ms[0]] + r;
    forall k | 0 <= k < |out|
      ensures IsFirstEntry(ms, out[k])
    {
      if k == 0 {
        assert IsFirstOfKey(ms, 0);
      } else {
        var e := r[k - 1];
        var i :| IsFirstOfKey(ms, i) && ms[i] == e;
        assert out[k] == ms[i];
      }
    }
  }

  /** Every kept entry is the first occurrence of its key. */
  lemma {:induction false} DedupFromOnlyFirsts(ms: seq<ModuleEntry>, seen: seq<(string, Option<string>)>)
    ensures OnlyFirsts(ms, DedupFrom(ms, seen))
    decreases |ms|
  {
    if |ms| > 0 {
      var tail := ms[1..];
      var k0 := Key(ms[0]);
      if k0 in seen {
        DedupFromOnlyFirsts(tail, seen);
        DedupFromUnseen(tail, seen);
        OnlyFirstsBehindHead(ms, DedupFrom(tail, seen));
      } else {
        var seen' := seen + [k0];
        var r := DedupFrom(tail, seen');
        DedupFromOnlyFirsts(tail, seen');
        DedupFromUnseen(tail, seen');
        assert forall k :: 0 <= k < |r| ==> Key(r[k]) != k0 by {
          assert k0 in seen';
        }
        OnlyFirstsBehindHead(ms, r);
        OnlyFirstsWithHead(ms, r);
      }
    }
  }

  /** What the loop keeps, starting from the keys in `seen`: distinct keys
      outside `seen`, every first occurrence of an unseen key, and nothing
      else. */
  lemma {:induction false} DedupFromKeepsFirsts(ms: seq<ModuleEntry>, seen: seq<(string, Option<string>)>)
    ensures KeysDistinct(DedupFrom(ms, seen))
    ensures forall k :: 0 <= k < |DedupFrom(ms, seen)| ==> Key(DedupFrom(ms, seen)[k]) !in seen
    ensures forall i :: IsFirstOfKey(ms, i) && Key(ms[i]) !in seen ==> ms[i] in DedupFrom(ms, seen)
    ensures forall k :: 0 <= k < |DedupFrom(ms, seen)| ==>
      exists i :: IsFirstOfKey(ms, i) && ms[i] == DedupFrom(ms, seen)[k]
  {
    DedupFromDistinctKeys(ms, seen);
    DedupFromUnseen(ms, seen);
    DedupFromKeepsEveryFirst(ms, seen);
    DedupFromOnlyFirsts(ms, seen);
  }

  /** The loop's output keeps the input order. */
  lemma {:induction false} DedupFromIsSubsequence(ms: seq<ModuleEntry>, seen: seq<(string, Option<string>)>)
    ensures IsSubsequence(DedupFrom(ms, seen), ms)
    decreases |ms|
  {
    if |ms| > 0 {
      var k0 := Key(ms[0]);
      if k0 in seen {
        DedupFromIsSubsequence(ms[1..], seen);
        SubsequenceOfTail(DedupFrom(ms[1..], seen), ms);
      } else {
        DedupFromIsSubsequence(ms[1..], seen + [k0]);
        var out := [ms[0]] + DedupFrom(ms[1..], seen + [k0]);
        assert out[0] == ms[0] && out[1..] == DedupFrom(ms[1..], seen + [k0]);
      }
    }
  }

  /** Entries whose keys are already distinct and unseen pass unchanged. */
  lemma {:induction false} DedupFromDistinct(ms: seq<ModuleEntry>, seen: seq<(string, Option<string>)>)
    requires KeysDistinct(ms)
    requires forall i :: 0 <= i < |ms| ==> Key(ms[i]) !in seen
    ensures DedupFrom(ms, seen) == ms
    decreases |ms|
  {
    if |ms| > 0 {
      var seen' := seen + [Key(ms[0])];
      forall i | 0 <= i < |ms[1..]| ensures Key(ms[1..][i]) !in seen' {
        assert ms[1..][i] == ms[i + 1];
        assert Key(ms[0]) != Key(ms[i + 1]);
      }
      DedupFromDistinct(ms[1..], seen');
      assert ms == [ms[0]] + ms[1..];
    }
  }

  /** Some entry of `ms` has key `k`. */
  predicate HasKey(ms: seq<ModuleEntry>, k: (string, Option<string>)) {
    exists j :: 0 <= j < |ms| && Key(ms[j]) == k
  }

  /** The first occurrences of `ms`, read from the back: the last entry is
      added exactly when no earlier entry shares its key. */
  ghost function FirstsOf(ms: seq<ModuleEntry>): seq<ModuleEntry>
    decreases |ms|
  {
    if |ms| == 0 then []
    else FirstsOf(ms[..|ms| - 1]) + (if IsFirstOfKey(ms, |ms| - 1) then [ms[|ms| - 1]] else [])
  }

  /** One more entry at the end is kept exactly when its key is neither in
      `seen` nor among the entries before it. */
  lemma {:induction false} DedupFromSnoc(ms: seq<ModuleEntry>, x: ModuleEntry, seen: seq<(string, Option<string>)>)
    ensures DedupFrom(ms + [x], seen) ==
      DedupFrom(ms, seen) + (if Key(x) in seen || HasKey(ms, Key(x)) then [] else [x])
    decreases |ms|
  {
    if |ms| == 0 {
      assert ms + [x] == [x];
      assert !HasKey(ms, Key(x));
    } else {
      var k0 := Key(ms[0]);
      assert (ms + [x])[0] == ms[0] && (ms + [x])[1..] == ms[1..] + [x];
      assert HasKey(ms, Key(x)) <==> Key(x) == k0 || HasKey(ms[1..], Key(x)) by {
        if HasKey(ms, Key(x)) && Key(x) != k0 {
          var j :| 0 <= j < |ms| && Key(ms[j]) == Key(x);
          assert ms[1..][j - 1] == ms[j];
        }
        if HasKey(ms[1..], Key(x)) {
          var j :| 0 <= j < |ms[1..]| && Key(ms[1..][j]) == Key(x);
          assert ms[j + 1] == ms[1..][j];
        }
        if Key(x) == k0 { assert Key(ms[0]) == Key(x); }
      }
      if k0 in seen {
        DedupFromSnoc(ms[1..], x, seen);
      } else {
        DedupFromSnoc(ms[1..], x, seen + [k0]);
      }
    }
  }

  /** The deduplication loop yields exactly the first occurrences of every
      key, in input order. */
  lemma {:induction false} DeduplicateIsFirsts(ms: seq<ModuleEntry>)
    ensures Deduplicate(ms) == FirstsOf(ms)
    decreases |ms|
  {
    if |ms| > 0 {
      var init := ms[..|ms| - 1];
      var x := ms[|ms| - 1];
      assert ms == init + [x];
      DeduplicateIsFirsts(init);
      DedupFromSnoc(init, x, []);
      assert IsFirstOfKey(ms, |ms| - 1) <==> !HasKey(init, Key(x)) by {
        if HasKey(init, Key(x)) {
          var j :| 0 <= j < |init| && Key(init[j]) == Key(x);
          assert ms[j] == init[j];
        }
        if !IsFirstOfKey(ms, |ms| - 1) {
          var j :| 0 <= j < |ms| - 1 && Key(ms[j]) == Key(ms[|ms| - 1]);
          assert init[j] == ms[j];
        }
      }
    }
  }

  /** `deduplicate` keeps exactly the first entry of every (footprint,
      value) pair, in input order. */
  lemma DeduplicateKeepsFirsts(ms: seq<ModuleEntry>)
    ensures KeysDistinct(Deduplicate(ms))
    ensures IsSubsequence(Deduplicate(ms), ms)
    ensures forall i :: IsFirstOfKey(ms, i) ==> ms[i] in Deduplicate(ms)
    ensures forall k :: 0 <= k < |Deduplicate(ms)| ==>
      exists i :: IsFirstOfKey(ms, i) && ms[i] == Deduplicate(ms)[k]
    ensures Deduplicate(ms) == FirstsOf(ms)
  {
    DedupFromKeepsFirsts(ms, []);
    DedupFromIsSubsequence(ms, []);
    DeduplicateIsFirsts(ms);
  }

  /** Deduplicating twice is deduplicating once. */
  lemma DeduplicateIdempotent(ms: seq<ModuleEntry>)
    ensures Deduplicate(Deduplicate(ms)) == Deduplicate(ms)
  {
    DedupFromKeepsFirsts(ms, []);
    DedupFromDistinct(Deduplicate(ms), []);
  }

  // ---------------------------------------------------------------------
  // Removal of common symbols

  /** Reference designator prefixes of common parts: resistors, diodes,
      capacitors, inductors, fuses, pins, switches, test pads, graphics,
      jacks, fiducials, mounting holes, connectors, reference points and
      batteries. */
  const ExcludedSymbols: seq<string> :=
    ["R", "D", "C", "L", "F", "P", "S", "SW", "TP", "G", "J", "FID", "M", "CON", "REF", "BT"]

  /** Value prefixes of connectors, printed symbols, resistors,
      potentiometers and gauges (matched ignoring case). */
  const CommonPrefixes: seq<string> := ["conn_", "symbol_", "resistor_", "potentiometer_", "gauge_"]

  /** Units of resistor and crystal values, upper-cased. */
  const UnitSuffixes: seq<string> := ["K", "M", "MHZ"]

  /** A character of the reference pattern's bracket class: any letter of an
      excluded symbol, in upper or lower case. */
  predicate InSymbolClass(c: char) {
    exists k, j :: 0 <= k < |ExcludedSymbols| && 0 <= j < |ExcludedSymbols[k]|
      && (c == UpperChar(ExcludedSymbols[k][j]) || c == LowerChar(ExcludedSymbols[k][j]))
  }

  predicate IsReferenceTail(c: char) {
    IsAsciiDigit(c) || c == ':' || c == '*'
  }

  /** `s` is `k` class letters followed by at least one digit, colon or
      asterisk. */
  predicate ReferenceSplit(s: string, k: int) {
    && 1 <= k <= 3 && k < |s|
    && (forall i :: 0 <= i < k ==> InSymbolClass(s[i]))
    && (forall i :: k <= i < |s| ==> IsReferenceTail(s[i]))
  }

  predicate ReferenceBody(s: string) {
    exists k :: 1 <= k <= 3 && ReferenceSplit(s, k)
  }

  /** `re.match` of `^[class]{1,3}[\d:\*]+$` on the reference. A Python
      `$` matches at the end of the text or just before a final line feed. */
  predicate ReferenceExcluded(reference: string) {
    ReferenceBody(reference)
    || (|reference| > 0 && reference[|reference| - 1] == '\n' && ReferenceBody(reference[..|reference| - 1]))
  }

  /** `\d*\.?\d*`: digits with at most one dot (possibly empty). */
  predicate IsDecimal(n: string) {
    && (forall i :: 0 <= i < |n| ==> IsAsciiDigit(n[i]) || n[i] == '.')
    && (forall i, j :: 0 <= i < j < |n| && n[i] == '.' ==> n[j] != '.')
  }

  /** `s` is a number followed, at position `k`, by one of the units. */
  predicate UnitSplit(s: string, k: int) {
    0 <= k <= |s| && IsDecimal(s[..k]) && Upper(s[k..]) in UnitSuffixes
  }

  predicate UnitBody(s: string) {
    exists k :: 0 <= k <= |s| && UnitSplit(s, k)
  }

  /** `^prefix.*$` ignoring case: the prefix, then a line without line
      feeds, possibly ended by one. */
  predicate PrefixLine(s: string, prefix: string) {
    && |prefix| <= |s|
    && Lower(s[..|prefix|]) == prefix
    && forall i :: |prefix| <= i < |s| - 1 ==> s[i] != '\n'
  }

  /** `re.match` of the common-component alternation on the value, ignoring
      case: a number followed by K, M or MHz, or one of the common
      prefixes. */
  predicate ValueIsCommonComponent(value: string) {
    || UnitBody(value)
    || (|value| > 0 && value[|value| - 1] == '\n' && UnitBody(value[..|value| - 1]))
    || (exists k :: 0 <= k < |CommonPrefixes| && PrefixLine(value, CommonPrefixes[k]))
  }

  /** The value is on the exclusion list, ignoring case. */
  predicate ValueExcludedByList(value: string, excluded: seq<string>) {
    exists k :: 0 <= k < |excluded| && Upper(excluded[k]) == Upper(value)
  }

  /** Applying the patterns to this entry raises `TypeError`: its reference
      is missing, or its reference passes and its value is missing (the
      value is only looked at when the reference did not match). */
  predicate RaisesOnPattern(m: ModuleEntry) {
    m.reference.None? || (!ReferenceExcluded(m.reference.value) && m.value.None?)
  }

  /** The entry is kept by the cleaning. */
  predicate Survives(m: ModuleEntry, excluded: seq<string>) {
    && m.reference.Some?
    && m.value.Some?
    && !ReferenceExcluded(m.reference.value)
    && !ValueIsCommonComponent(m.value.value)
    && !ValueExcludedByList(m.value.value, excluded)
  }

  /** The first pass: neither the reference nor the value pattern matches. */
  predicate PassesPatterns(m: ModuleEntry) {
    match m.reference
    case None => false
    case Some(r) =>
      !ReferenceExcluded(r) && (match m.value case None => false case Some(v) => !ValueIsCommonComponent(v))
  }

  /** The second pass: the value is a string not on the exclusion list. */
  predicate PassesList(m: ModuleEntry, excluded: seq<string>) {
    m.value.Some? && !ValueExcludedByList(m.value.value, excluded)
  }

  /** The two passes together keep exactly the survivors. */
  lemma TwoPassesKeepSurvivors(ms: seq<ModuleEntry>, excluded: seq<string>)
    ensures Filter(Filter(ms, PassesPatterns), m => PassesList(m, excluded)) == Filter(ms, m => Survives(m, excluded))
  {
    forall i | 0 <= i < |ms|
      ensures (PassesPatterns(ms[i]) && PassesList(ms[i], excluded)) == Survives(ms[i], excluded)
    {
      var m := ms[i];
      if m.reference.Some? && m.value.Some? {
        assert PassesPatterns(m) == (!ReferenceExcluded(m.reference.value) && !ValueIsCommonComponent(m.value.value));
      }
    }
    FilterFilter(ms, PassesPatterns, m => PassesList(m, excluded), m => Survives(m, excluded));
  }

  predicate SomeRaises(ms: seq<ModuleEntry>) {
    exists i :: 0 <= i < |ms| && RaisesOnPattern(ms[i])
  }

  predicate SomePassesPatterns(ms: seq<ModuleEntry>) {
    exists i :: 0 <= i < |ms| && PassesPatterns(ms[i])
  }

  /** `clean_data` with the exclusion list read from its file, `None` when
      the file does not exist. It fails when a pattern meets a missing
      field, or when the list is needed and was never read; otherwise it
      keeps exactly the surviving entries, in order. */
  function CleanData(ms: seq<ModuleEntry>, excluded: Option<seq<string>>): (r: Result<seq<ModuleEntry>, ParseError>)
    ensures r == Failure(FieldNotAString) <==> SomeRaises(ms)
    ensures r == Failure(ExclusionListMissing) <==> !SomeRaises(ms) && excluded.None? && SomePassesPatterns(ms)
    ensures r.Success? <==> !SomeRaises(ms) && !(excluded.None? && SomePassesPatterns(ms))
    ensures r.Success? ==> r.value == Filter(ms, m => Survives(m, excluded.GetOr([])))
  {
    if SomeRaises(ms) then Failure(FieldNotAString)
    else
      var cleaned := Filter(ms, PassesPatterns);
      FilterNonEmpty(ms, PassesPatterns);
      if excluded.None? && |cleaned| > 0 then Failure(ExclusionListMissing)
      else
        TwoPassesKeepSurvivors(ms, excluded.GetOr([]));
        Success(Filter(cleaned, m => PassesList(m, excluded.GetOr([]))))
  }

  /** Survivors of the cleaning keep their order and pass every rule; every
      entry passing every rule survives. */
  lemma CleanDataKeepsSurvivors(ms: seq<ModuleEntry>, excluded: Option<seq<string>>)
    requires CleanData(ms, excluded).Success?
    ensures IsSubsequence(CleanData(ms, excluded).value, ms)
    ensures forall k :: 0 <= k < |CleanData(ms, excluded).value| ==>
      Survives(CleanData(ms, excluded).value[k], excluded.GetOr([]))
    ensures forall i :: 0 <= i < |ms| && Survives(ms[i], excluded.GetOr([])) ==> ms[i] in CleanData(ms, excluded).value
  {
    FilterIsSubsequence(ms, m => Survives(m, excluded.GetOr([])));
  }

  /** Resistor and switch designators match the reference pattern, also
      with a final line feed. */
  lemma ExcludedReferenceExamples()
    ensures ReferenceExcluded("R12") && ReferenceExcluded("SW3:1\n")
  {
    assert InSymbolClass('R') by { assert ExcludedSymbols[0][0] == 'R'; }
    assert InSymbolClass('S') by { assert ExcludedSymbols[6][0] == 'S'; }
    assert InSymbolClass('W') by { assert ExcludedSymbols[7][1] == 'W'; }
    assert ReferenceSplit("R12", 1);
    assert ReferenceSplit("SW3:1", 2);
    assert "SW3:1\n"[..5] == "SW3:1";
  }

  /** A designator needs digits after its letters, and at most three
      letters. */
  lemma KeptReferenceExamples()
    ensures !ReferenceExcluded("R") && !ReferenceExcluded("RRRR1")
  {
    assert !IsReferenceTail('R');
    assert !ReferenceSplit("RRRR1", 3) by { assert !IsReferenceTail("RRRR1"[3]); }
  }

  /** A value with a unit and a connector value are common components. */
  lemma CommonValueExamples()
    ensures ValueIsCommonComponent("4.7k") && ValueIsCommonComponent("Conn_01x02")
  {
    assert UnitSplit("4.7k", 3) by { assert "4.7k"[..3] == "4.7"; assert Upper("4.7k"[3..]) == "K"; }
    assert PrefixLine("Conn_01x02", CommonPrefixes[0]) by { assert "Conn_01x02"[..5] == "Conn_"; }
  }

  /** A unit must come straight after the number. */
  lemma UnitNeedsNumberExample()
    ensures !ValueIsCommonComponent("K4.7")
  {
    forall k | 0 <= k <= 4 ensures !UnitSplit("K4.7", k) {
      if k == 0 { assert Upper("K4.7"[0..]) == "K4.7"; }
      else { assert "K4.7"[..k][0] == 'K'; }
    }
    forall k | 0 <= k < |CommonPrefixes| ensures !PrefixLine("K4.7", CommonPrefixes[k]) {
      assert |CommonPrefixes[k]| > 4;
    }
  }

  // ---------------------------------------------------------------------
  // The pipeline

  /** The item stored for a surviving entry. */
  function ToItem(m: ModuleEntry): (it: Models.Item)
    requires m.reference.Some? && m.value.Some?
    ensures it.moduleName == m.name && it.description == m.descr && it.tags == m.tags
    ensures Some(it.reference) == m.reference && Some(it.value) == m.value && it.partId.None?
  {
    Models.Item(m.name, m.descr, m.tags, m.reference.value, m.value.value, None)
  }

  /** `parse_kicad_file` outcome: no module list at all, or the items. */
  datatype Parsed = NoModuleList | Items(items: seq<Models.Item>)

  /** The entries handed to the cleaning: extracted and deduplicated. */
  function Entries(board: seq<Footprint>): seq<ModuleEntry> {
    Deduplicate(ExtractAll(board))
  }

  /** The entries that reach item creation. */
  function Survivors(board: seq<Footprint>, excluded: seq<string>): (ms: seq<ModuleEntry>)
    ensures forall i :: 0 <= i < |ms| ==> ms[i].reference.Some? && ms[i].value.Some?
  {
    Filter(Entries(board), m => Survives(m, excluded))
  }

  /** One item per entry, in order. */
  function ItemsOf(ms: seq<ModuleEntry>): (items: seq<Models.Item>)
    requires forall i :: 0 <= i < |ms| ==> ms[i].reference.Some? && ms[i].value.Some?
    ensures |items| == |ms|
    ensures forall i :: 0 <= i < |ms| ==> items[i] == ToItem(ms[i])
  {
    seq(|ms|, i requires 0 <= i < |ms| => ToItem(ms[i]))
  }

  /** Extract, deduplicate, clean, and create one item per survivor; an
      empty result is an error. */
  function ParseKicadFile(board: Option<seq<Footprint>>, excluded: Option<seq<string>>): (r: Result<Parsed, ParseError>)
    ensures board.None? <==> r == Success(NoModuleList)
    ensures board.Some? ==>
      (r.Success? <==>
        && !SomeRaises(Entries(board.value))
        && !(excluded.None? && SomePassesPatterns(Entries(board.value)))
        && |Survivors(board.value, excluded.GetOr([]))| > 0)
    ensures board.Some? && r.Success? ==> r.value == Items(ItemsOf(Survivors(board.value, excluded.GetOr([]))))
    ensures board.Some? && SomeRaises(Entries(board.value)) ==> r == Failure(FieldNotAString)
    ensures board.Some? && |board.value| == 0 ==> r == Failure(ModulesEmpty)
    ensures board.Some? && CleanData(Entries(board.value), excluded).Failure? ==>
      r == Failure(CleanData(Entries(board.value), excluded).error)
    ensures (board.Some? && CleanData(Entries(board.value), excluded).Success?
             && |Survivors(board.value, excluded.GetOr([]))| == 0) ==> r == Failure(ModulesEmpty)
  {
    match board
    case None => Success(NoModuleList)
    case Some(fps) =>
      match CleanData(Entries(fps), excluded)
      case Failure(e) => Failure(e)
      case Success(ms) =>
        if |ms| == 0 then Failure(ModulesEmpty)
        else Success(Items(ItemsOf(ms)))
  }

  /** Items of a parsed board have distinct (footprint, value) pairs, pass
      every cleaning rule, and come from the board's entries in board
      order. */
  lemma ParsedItemsAreCleanAndUnique(board: seq<Footprint>, excluded: Option<seq<string>>)
    requires ParseKicadFile(Some(board), excluded).Success?
    ensures var items := ParseKicadFile(Some(board), excluded).value.items;
      && (forall i, j :: 0 <= i < j < |items| ==>
            (items[i].moduleName, Some(items[i].value)) != (items[j].moduleName, Some(items[j].value)))
      && (forall i :: 0 <= i < |items| ==>
            && !ReferenceExcluded(items[i].reference)
            && !ValueIsCommonComponent(items[i].value)
            && !ValueExcludedByList(items[i].value, excluded.GetOr([])))
      && IsSubsequence(Survivors(board, excluded.GetOr([])), ExtractAll(board))
  {
    var unique := Deduplicate(ExtractAll(board));
    var surv := Survivors(board, excluded.GetOr([]));
    DeduplicateKeepsFirsts(ExtractAll(board));
    FilterIsSubsequence(unique, m => Survives(m, excluded.GetOr([])));
    SubsequenceTransitive(surv, unique, ExtractAll(board));
    SubsequenceKeepsDistinct(surv, unique);
    var items := ParseKicadFile(Some(board), excluded).value.items;
    forall i, j | 0 <= i < j < |items|
      ensures (items[i].moduleName, Some(items[i].value)) != (items[j].moduleName, Some(items[j].value))
    {
      assert Key(surv[i]) != Key(surv[j]);
    }
  }

  /** A subsequence of a subsequence is a subsequence. */
  lemma {:induction false} SubsequenceTransitive(a: seq<ModuleEntry>, b: seq<ModuleEntry>, c: seq<ModuleEntry>)
    requires IsSubsequence(a, b) && IsSubsequence(b, c)
    ensures IsSubsequence(a, c)
    decreases |c|
  {
    if |a| > 0 {
      assert |b| > 0 && |c| > 0;
      if b[0] == c[0] {
        if a[0] == b[0] {
          SubsequenceTransitive(a[1..], b[1..], c[1..]);
        } else {
          SubsequenceTransitive(a, b[1..], c[1..]);
        }
      } else {
        SubsequenceTransitive(a, b, c[1..]);
        SubsequenceOfTail(a, c);
      }
    }
  }

  /** A subsequence of entries with distinct keys has distinct keys. */
  lemma {:induction false} SubsequenceKeepsDistinct(a: seq<ModuleEntry>, b: seq<ModuleEntry>)
    requires IsSubsequence(a, b) && KeysDistinct(b)
    ensures KeysDistinct(a)
    decreases |b|
  {
    if |a| > 0 {
      assert |b| > 0;
      assert KeysDistinct(b[1..]) by {
        forall i, j | 0 <= i < j < |b[1..]| ensures Key(b[1..][i]) != Key(b[1..][j]) {
          assert b[1..][i] == b[i + 1] && b[1..][j] == b[j + 1];
        }
      }
      if a[0] == b[0] {
        SubsequenceKeepsDistinct(a[1..], b[1..]);
        SubsequenceElements(a[1..], b[1..]);
        forall i, j | 0 <= i < j < |a| ensures Key(a[i]) != Key(a[j]) {
          if i == 0 {
            assert a[j] == a[1..][j - 1];
            var k :| 0 <= k < |b[1..]| && b[1..][k] == a[j];
            assert Key(b[0]) != Key(b[k + 1]);
          } else {
            assert a[i] == a[1..][i - 1] && a[j] == a[1..][j - 1];
          }
        }
      } else {
        SubsequenceKeepsDistinct(a, b[1..]);
      }
    }
  }

  /** Every element of a subsequence is an element of the whole. */
  lemma {:induction false} SubsequenceElements(a: seq<ModuleEntry>, b: seq<ModuleEntry>)
    requires IsSubsequence(a, b)
    ensures forall i :: 0 <= i < |a| ==> exists k :: 0 <= k < |b| && b[k] == a[i]
    decreases |b|
  {
    if |a| > 0 {
      if a[0] == b[0] {
        SubsequenceElements(a[1..], b[1..]);
        forall i | 0 <= i < |a| ensures exists k :: 0 <= k < |b| && b[k] == a[i] {
          if i == 0 { assert b[0] == a[0]; }
          else {
            assert a[i] == a[1..][i - 1];
            var k :| 0 <= k < |b[1..]| && b[1..][k] == a[1..][i - 1];
            assert b[k + 1] == a[i];
          }
        }
      } else {
        SubsequenceElements(a, b[1..]);
        forall i | 0 <= i < |a| ensures exists k :: 0 <= k < |b| && b[k] == a[i] {
          var k :| 0 <= k < |b[1..]| && b[1..][k] == a[i];
          assert b[k + 1] == a[i];
        }
      }
    }
  }
}

=== FILE: models.dfy ===
/** The database records the modelled code reads and writes. The store
    itself (sessions, queries, commits) is not modelled: query results are
    passed in as sequences of these records. */
module Models {
  import opened Wrappers

  /** A catalogue part fetched from the parts API; `mpn` is the
      manufacturer part number the matcher compares against. */
  datatype Part = Part(
    id: int,
    aislerId: string,
    mpn: string,
    manufacturer: string,
    description: string,
    datasheet: string)

  /** One board component found in a KiCad file. `reference` and `value`
      are always strings for stored items: the parser only keeps modules
      whose reference and value were present. */
  datatype Item = Item(
    moduleName: string,
    description: Option<string>,
    tags: Option<string>,
    reference: string,
    value: string,
    partId: Option<int>)

  /** A crawled `.kicad_pcb` file and the repository it belongs to. */
  datatype FileRecord = FileRecord(id: int, url: string, repoId: int)

  /** A crawled repository. */
  datatype Repo = Repo(
    id: int,
    url: string,
    name: string,
    description: string,
    license: string,
    licenseUrl: string,
    readme: string,
    stars: int,
    forks: int)
}

=== FILE: part_matcher.dfy ===
/** Reconciliation of stored board items against the parts catalogue:
    a case-insensitive containment pre-filter, then the candidate whose
    manufacturer part number is nearest by Levenshtein distance, ties going
    to the earliest candidate. */
module PartMatcher {
  import opened Wrappers
  import opened Text
  import opened Seqs
  import opened Models

  function Min3(x: nat, y: nat, z: nat): nat {
    if x <= y && x <= z then x else if y <= z then y else z
  }

  /** Levenshtein edit distance: the least number of single-character
      insertions, deletions and substitutions turning `a` into `b`. */
  function Levenshtein(a: string, b: string): nat
    decreases |a| + |b|
  {
    if |a| == 0 then |b|
    else if |b| == 0 then |a|
    else Min3(
      Levenshtein(a[1..], b) + 1,
      Levenshtein(a, b[1..]) + 1,
      Levenshtein(a[1..], b[1..]) + (if a[0] == b[0] then 0 else 1))
  }

  /** Every string is at distance 0 from itself. */
  lemma {:induction false} LevenshteinSelf(a: string)
    ensures Levenshtein(a, a) == 0
    decreases |a|
  {
    if |a| > 0 {
      LevenshteinSelf(a[1..]);
    }
  }

  /** Distance 0 only between equal strings. */
  lemma {:induction false} LevenshteinZero(a: string, b: string)
    requires Levenshtein(a, b) == 0
    ensures a == b
    decreases |a| + |b|
  {
    if |a| > 0 && |b| > 0 {
      assert a[0] == b[0] && Levenshtein(a[1..], b[1..]) == 0;
      LevenshteinZero(a[1..], b[1..]);
      assert a == [a[0]] + a[1..] && b == [b[0]] + b[1..];
    }
  }

  /** How far a catalogue part is from the item's value. */
  function Distance(value: string, p: Part): nat {
    Levenshtein(value, p.mpn)
  }

  /** `k` is the first position holding a minimal distance. */
  ghost predicate IsFirstArgmin(value: string, parts: seq<Part>, k: int) {
    && 0 <= k < |parts|
    && (forall j :: 0 <= j < |parts| ==> Distance(value, parts[k]) <= Distance(value, parts[j]))
    && (forall j :: 0 <= j < k ==> Distance(value, parts[j]) > Distance(value, parts[k]))
  }

  /** The first minimal position is unique, so matching is deterministic. */
  lemma FirstArgminUnique(value: string, parts: seq<Part>, k1: int, k2: int)
    requires IsFirstArgmin(value, parts, k1) && IsFirstArgmin(value, parts, k2)
    ensures k1 == k2
  {
    assert Distance(value, parts[k1]) == Distance(value, parts[k2]);
  }

  /** The catalogue part nearest to `value`; `None` for no candidates. The
      running best is replaced only on a strictly smaller distance, so
      ties keep the earliest candidate. */
  method MatchParts(value: string, parts: seq<Part>) returns (best: Option<Part>)
    ensures best.None? <==> |parts| == 0
    ensures best.Some? ==> exists k :: IsFirstArgmin(value, parts, k) && best.value == parts[k]
  {
    best := None;
    var bestDist: Option<nat> := None;
    ghost var k := 0;
    for i := 0 to |parts|
      invariant best.None? <==> i == 0
      invariant bestDist.None? <==> i == 0
      invariant i > 0 ==> 0 <= k < i && best.value == parts[k] && bestDist.value == Distance(value, parts[k])
      invariant i > 0 ==> forall j :: 0 <= j < i ==> bestDist.value <= Distance(value, parts[j])
      invariant i > 0 ==> forall j :: 0 <= j < k ==> Distance(value, parts[j]) > bestDist.value
    {
      var dist := Levenshtein(value, parts[i].mpn);
      if bestDist.None? || dist < bestDist.value {
        best := Some(parts[i]);
        bestDist := Some(dist);
        k := i;
      }
    }
  }

  /** A candidate whose part number equals the value exactly, with no earlier
      exact match, is the one chosen. */
  lemma ExactMatchChosen(value: string, parts: seq<Part>, i: int)
    requires 0 <= i < |parts| && parts[i].mpn == value
    requires forall j :: 0 <= j < i ==> parts[j].mpn != value
    ensures IsFirstArgmin(value, parts, i)
  {
    LevenshteinSelf(value);
    forall j | 0 <= j < i
      ensures Distance(value, parts[j]) > 0
    {
      if Distance(value, parts[j]) == 0 {
        LevenshteinZero(value, parts[j].mpn);
      }
    }
  }

  /** Value "STM32ASDF" against "STM32F1", "STM32ASDF", "STM32ASDG": the
      exact part number, in second position, is chosen. */
  lemma ExactPartNumberExample(p1: Part, p2: Part, p3: Part)
    requires p1.mpn == "STM32F1" && p2.mpn == "STM32ASDF" && p3.mpn == "STM32ASDG"
    ensures IsFirstArgmin("STM32ASDF", [p1, p2, p3], 1)
  {
    ExactMatchChosen("STM32ASDF", [p1, p2, p3], 1);
  }

  /** The catalogue parts an item's value is looked up against: those whose
      part number contains the value, ignoring case, in catalogue order. */
  function Candidates(value: string, catalog: seq<Part>): seq<Part> {
    Filter(catalog, (p: Part) => ContainsIgnoringCase(p.mpn, value))
  }

  /** `after` is `item` with its part association set to the best candidate,
      or `item` unchanged when no candidate passes the pre-filter. */
  ghost predicate Validated(item: Item, catalog: seq<Part>, after: Item) {
    var c := Candidates(item.value, catalog);
    if |c| == 0 then after == item
    else exists k :: IsFirstArgmin(item.value, c, k) && after == item.(partId := Some(c[k].id))
  }

  /** Associates every item with its best-matching catalogue part. */
  method ValidateParts(items: seq<Item>, catalog: seq<Part>) returns (result: seq<Item>)
    ensures |result| == |items|
    ensures forall i :: 0 <= i < |items| ==> Validated(items[i], catalog, result[i])
  {
    result := [];
    for i := 0 to |items|
      invariant |result| == i
      invariant forall j :: 0 <= j < i ==> Validated(items[j], catalog, result[j])
    {
      var item := items[i];
      var related := Candidates(item.value, catalog);
      if |related| > 0 {
        var best := MatchParts(item.value, related);
        item := item.(partId := Some(best.value.id));
      }
      result := result + [item];
    }
  }
}

=== FILE: parts_catalog.dfy ===
/** The parts-catalogue build: a queue of page URLs is consumed front first;
    each page may carry paging metadata and a link to the next page, which
    joins the back of the queue. Two loop detectors (an offset that does not
    grow, a next link equal to the page just fetched) and the error paths end
    the process with distinct exit codes. Progress is saved after every page
    and the build is skipped when the last one finished less than a week ago.

    HTTP, the parts insertion into the database, the pickle file and the
    signal handlers are not modelled: a run is driven by a trace of
    observations (the page received, whether the insertion succeeded,
    whether a stop signal arrived), and instants are seconds on an abstract
    clock. */
module PartsCatalog {
  import opened Wrappers
  import opened Models

  const SecondsPerWeek: int := 7 * 24 * 60 * 60

  /** Paging metadata: item total, offset of the page, page size. */
  datatype Meta = Meta(total: int, offset: int, limit: int)

  /** The metadata a fresh build starts from: no page seen yet. */
  const FreshMeta := Meta(-1, -1, -1)

  /** One API response: HTTP status, and the optional `meta`, `data` and
      `links` members of its JSON body (`links.next` itself may be null). */
  datatype Page = Page(
    status: int,
    meta: Option<Meta>,
    data: Option<seq<Part>>,
    links: Option<Option<string>>)

  /** The saved progress: pending URLs, metadata, and when the last complete
      build finished. An absent or unreadable status file reads as all
      `None`. */
  datatype Status = Status(nextUrls: Option<seq<string>>, meta: Option<Meta>, finished: Option<int>)

  const NoStatus := Status(None, None, None)

  /** The state the fetch loop carries from page to page. */
  datatype LoopState = LoopState(queue: seq<string>, meta: Meta, stopRequested: bool)

  /** Why the process exits early. */
  datatype Exit =
    | ConfigMissing
    | ConfigUnreadable
    | SessionInitFailed
    | BadResponse
    | NextUrlLoop
    | InsertFailed
    | OffsetRegression

  function ExitCode(e: Exit): int {
    match e
    case ConfigMissing => -3
    case ConfigUnreadable => -2
    case SessionInitFailed => -4
    case BadResponse => -5
    case NextUrlLoop => -6
    case InsertFailed => -7
    case OffsetRegression => -10
  }

  /** Each exit code names exactly one cause. */
  lemma ExitCodesDistinct(a: Exit, b: Exit)
    requires ExitCode(a) == ExitCode(b)
    ensures a == b
  {
  }

  /** What one loop iteration meets: the page fetched for the head URL,
      whether storing its parts raised no error (duplicates are tolerated),
      and whether a stop signal arrived meanwhile. */
  datatype Observation = Observation(page: Page, stored: bool, stopSignal: bool)

  datatype StepResult =
    | Continue(next: LoopState, saved: Status)
    | Abort(exit: Exit, exitSaved: Option<Status>)

  /** The `links.next` URL of a page, when there is one. */
  function NextLink(page: Page): Option<string> {
    if page.links.Some? then page.links.value else None
  }

  /** The page passed both loop detectors. */
  predicate PageAccepted(s: LoopState, page: Page)
    requires |s.queue| > 0
  {
    && page.status == 200
    && (page.meta.Some? ==> s.meta.offset < page.meta.value.offset)
    && NextLink(page) != Some(s.queue[0])
  }

  /** One iteration of the fetch loop for the URL at the head of the queue. */
  function Step(s: LoopState, obs: Observation): (r: StepResult)
    requires |s.queue| > 0
    ensures r.Abort? && r.exit == BadResponse <==> obs.page.status != 200
    ensures r.Abort? && r.exit == OffsetRegression <==>
      obs.page.status == 200 && obs.page.meta.Some? && obs.page.meta.value.offset <= s.meta.offset
    ensures r.Abort? && r.exit == NextUrlLoop <==>
      && obs.page.status == 200
      && (obs.page.meta.Some? ==> s.meta.offset < obs.page.meta.value.offset)
      && NextLink(obs.page) == Some(s.queue[0])
    ensures r.Abort? ==> r.exit in {BadResponse, OffsetRegression, NextUrlLoop, InsertFailed}
    ensures r.Abort? ==> (r.exitSaved.Some? <==> r.exit == InsertFailed)
    ensures r.Abort? && r.exit == InsertFailed ==>
      && r.exitSaved.value.nextUrls.Some?
      && r.exitSaved.value.nextUrls.value == s.queue[1..] + (if NextLink(obs.page).Some? then [NextLink(obs.page).value] else [])
      && r.exitSaved.value.meta == Some(if obs.page.meta.Some? then obs.page.meta.value else s.meta)
      && r.exitSaved.value.finished.None?
    ensures r.Continue? <==> PageAccepted(s, obs.page) && obs.page.data.Some? && obs.stored
    ensures r.Continue? ==> r.next.meta.offset >= s.meta.offset
    ensures r.Continue? && obs.page.meta.Some? ==> r.next.meta == obs.page.meta.value
    ensures r.Continue? && obs.page.meta.None? ==> r.next.meta == s.meta
    ensures r.Continue? ==> r.next.queue == s.queue[1..] + (if NextLink(obs.page).Some? then [NextLink(obs.page).value] else [])
    ensures r.Continue? ==> r.next.stopRequested == (s.stopRequested || obs.stopSignal)
    ensures r.Continue? ==> r.saved == Status(Some(r.next.queue), Some(r.next.meta), None)
  {
    var url := s.queue[0];
    var rest := s.queue[1..];
    var page := obs.page;
    if page.status != 200 then Abort(BadResponse, None)
    else if page.meta.Some? && s.meta.offset >= page.meta.value.offset then Abort(OffsetRegression, None)
    else
      var meta := if page.meta.Some? then page.meta.value else s.meta;
      var link := NextLink(page);
      if link.Some? && link.value == url then Abort(NextUrlLoop, None)
      else
        var queue := if link.Some? then rest + [link.value] else rest;
        var saved := Status(Some(queue), Some(meta), None);
        // inserting a page without a `data` member iterates over None and raises
        if page.data.None? || !obs.stored then Abort(InsertFailed, Some(saved))
        else Continue(LoopState(queue, meta, s.stopRequested || obs.stopSignal), saved)
  }

  /** What is saved when the loop ends: a finished mark when the queue ran
      dry, the pending queue and metadata when a stop was requested. */
  function FinalStatus(s: LoopState, finishedAt: int): Status {
    if s.stopRequested then Status(Some(s.queue), Some(s.meta), None)
    else Status(None, None, Some(finishedAt))
  }

  datatype RunResult =
    | Finished(state: LoopState, saved: Status)
    | Aborted(exit: Exit, exitSaved: Option<Status>)
    | Suspended(state: LoopState)

  /** The fetch loop over a trace of observations; `Suspended` when the trace
      ends while the loop would go on. */
  function Run(s: LoopState, trace: seq<Observation>, finishedAt: int): (r: RunResult)
    ensures r.Finished? ==> |r.state.queue| == 0 || r.state.stopRequested
    ensures r.Finished? && !r.state.stopRequested ==> r.saved == Status(None, None, Some(finishedAt))
    ensures r.Finished? && r.state.stopRequested ==> r.saved == Status(Some(r.state.queue), Some(r.state.meta), None)
    ensures r.Finished? || r.Suspended? ==> r.state.meta.offset >= s.meta.offset
    decreases |trace|
  {
    if |s.queue| == 0 || s.stopRequested then Finished(s, FinalStatus(s, finishedAt))
    else if |trace| == 0 then Suspended(s)
    else
      match Step(s, trace[0])
      case Continue(next, _) => Run(next, trace[1..], finishedAt)
      case Abort(exit, saved) => Aborted(exit, saved)
  }

  /** The metadata offsets of the pages the loop accepted, in fetch order. */
  function AcceptedOffsets(s: LoopState, trace: seq<Observation>): seq<int>
    decreases |trace|
  {
    if |s.queue| == 0 || s.stopRequested || |trace| == 0 then []
    else
      match Step(s, trace[0])
      case Continue(next, _) =>
        (if trace[0].page.meta.Some? then [trace[0].page.meta.value.offset] else [])
        + AcceptedOffsets(next, trace[1..])
      case Abort(_, _) => []
  }

  predicate StrictlyIncreasing(xs: seq<int>) {
    forall i, j :: 0 <= i < j < |xs| ==> xs[i] < xs[j]
  }

  /** Accepted offsets strictly increase, starting above the offset the loop
      began with. */
  lemma {:induction false} AcceptedOffsetsIncrease(s: LoopState, trace: seq<Observation>)
    ensures StrictlyIncreasing(AcceptedOffsets(s, trace))
    ensures forall i :: 0 <= i < |AcceptedOffsets(s, trace)| ==> s.meta.offset < AcceptedOffsets(s, trace)[i]
    decreases |trace|
  {
    if |s.queue| > 0 && !s.stopRequested && |trace| > 0 {
      match Step(s, trace[0])
      case Continue(next, _) =>
        AcceptedOffsetsIncrease(next, trace[1..]);
        var tail := AcceptedOffsets(next, trace[1..]);
        if trace[0].page.meta.Some? {
          var head := trace[0].page.meta.value.offset;
          assert next.meta.offset == head;
          assert AcceptedOffsets(s, trace) == [head] + tail;
        } else {
          assert AcceptedOffsets(s, trace) == tail;
        }
      case Abort(_, _) =>
    }
  }

  /** A run cut short by the end of its trace continues seamlessly: running
      the rest of the trace from the suspended state gives the same result
      as running the whole trace. */
  lemma {:induction false} RunConcat(s: LoopState, t1: seq<Observation>, t2: seq<Observation>, finishedAt: int)
    requires Run(s, t1, finishedAt).Suspended?
    ensures Run(s, t1 + t2, finishedAt) == Run(Run(s, t1, finishedAt).state, t2, finishedAt)
    decreases |t1|
  {
    if |t1| > 0 {
      assert (t1 + t2)[0] == t1[0];
      assert (t1 + t2)[1..] == t1[1..] + t2;
      match Step(s, t1[0])
      case Continue(next, _) => RunConcat(next, t1[1..], t2, finishedAt);
      case Abort(_, _) =>
    } else {
      assert t1 + t2 == t2;
    }
  }

  /** A detected anomaly stops the loop at once: nothing further is fetched
      and the saved progress is not advanced. */
  lemma AnomalyStopsRun(s: LoopState, trace: seq<Observation>, finishedAt: int)
    requires |s.queue| > 0 && !s.stopRequested && |trace| > 0
    requires Step(s, trace[0]).Abort? && Step(s, trace[0]).exit in {NextUrlLoop, OffsetRegression}
    ensures Run(s, trace, finishedAt) == Aborted(Step(s, trace[0]).exit, None)
  {
  }

  datatype Start = Skip | Begin(state: LoopState)

  /** The resume rule: skip when the last complete build finished less than a
      week ago; otherwise continue from the saved queue, with the saved
      metadata unless the last build finished, in which case the metadata
      starts afresh. */
  function Resume(saved: Status, now: int, seedUrl: string, stopRequested: bool): (r: Start)
    ensures r.Skip? <==> saved.finished.Some? && now < saved.finished.value + SecondsPerWeek
    ensures r.Begin? ==> r.state.queue == saved.nextUrls.GetOr([seedUrl])
    ensures r.Begin? && saved.finished.Some? ==> r.state.meta == FreshMeta
    ensures r.Begin? && saved.finished.None? ==> r.state.meta == saved.meta.GetOr(FreshMeta)
  {
    if saved.finished.Some? && saved.finished.value + SecondsPerWeek > now then Skip
    else
      var meta := if saved.finished.Some? then None else saved.meta;
      Begin(LoopState(saved.nextUrls.GetOr([seedUrl]), meta.GetOr(FreshMeta), stopRequested))
  }

  /** Progress saved after a page restores, on the next start, exactly the
      loop state that followed the page. */
  lemma ResumeAfterPage(s: LoopState, obs: Observation, now: int, seedUrl: string)
    requires |s.queue| > 0 && Step(s, obs).Continue?
    ensures Resume(Step(s, obs).saved, now, seedUrl, false) == Begin(Step(s, obs).next.(stopRequested := false))
  {
  }

  /** Progress saved when storing a page fails resumes past that page: the
      next start begins with the rest of the queue and the page's next
      link, so the page whose parts were not stored is not fetched again
      first. */
  lemma ResumeAfterInsertFailure(s: LoopState, obs: Observation, now: int, seedUrl: string)
    requires |s.queue| > 0 && Step(s, obs).Abort? && Step(s, obs).exit == InsertFailed
    ensures Resume(Step(s, obs).exitSaved.value, now, seedUrl, false) ==
      Begin(LoopState(s.queue[1..] + (if NextLink(obs.page).Some? then [NextLink(obs.page).value] else []),
                      if obs.page.meta.Some? then obs.page.meta.value else s.meta, false))
  {
  }

  /** Progress saved on a graceful stop restores the stopped loop state. */
  lemma ResumeAfterStop(s: LoopState, finishedAt: int, now: int, seedUrl: string)
    requires s.stopRequested
    ensures Resume(FinalStatus(s, finishedAt), now, seedUrl, false) == Begin(s.(stopRequested := false))
  {
  }

  datatype BuildResult = Skipped | Ran(result: RunResult)

  /** The whole build: resume rule, then the fetch loop. */
  function BuildPartsDb(saved: Status, now: int, seedUrl: string, stopRequested: bool,
                        trace: seq<Observation>, finishedAt: int): (r: BuildResult)
    ensures r.Skipped? <==> saved.finished.Some? && now < saved.finished.value + SecondsPerWeek
    ensures saved == NoStatus ==> r == Ran(Run(LoopState([seedUrl], FreshMeta, stopRequested), trace, finishedAt))
  {
    match Resume(saved, now, seedUrl, stopRequested)
    case Skip => Skipped
    case Begin(state) => Ran(Run(state, trace, finishedAt))
  }

  /** A build finished at `finishedAt` is skipped for exactly one week. */
  lemma SkippedForAWeek(finishedAt: int, now: int, seedUrl: string, stopRequested: bool,
                        trace: seq<Observation>, at: int)
    ensures BuildPartsDb(FinalStatus(LoopState([], FreshMeta, false), finishedAt), now, seedUrl, stopRequested, trace, at).Skipped?
      <==> now < finishedAt + SecondsPerWeek
  {
  }
}

=== FILE: rate_manager.dfy ===
/** The quota manager of the parts API client: a query counter with a daily
    limit, a flag that forces the limit, and the instant of the next daily
    reset. Time is an abstract clock in whole seconds, days starting at
    multiples of `SecondsPerDay`; waiting is modelled over the clock
    readings the loop would take. */
module RateManager {
  import opened Wrappers

  const RateLimit: nat := 1000
  const SecondsPerDay: int := 86400
  /** The reset time of day: midnight. */
  const ResetSecondOfDay: int := 0
  /** Length of one sleep while waiting for the reset. */
  const SleepSeconds: int := 60
  /** Python's default recursion limit. */
  const RecursionLimit: nat := 1000

  datatype Governor = Governor(queries: nat, forced: bool, nextReset: int)

  predicate IsLimitReached(g: Governor) {
    g.queries >= RateLimit || g.forced
  }

  /** One more query. */
  function Update(g: Governor): (r: Governor)
    ensures r.queries == g.queries + 1
    ensures r.forced == g.forced && r.nextReset == g.nextReset
  {
    g.(queries := g.queries + 1)
  }

  /** An instant at which the quota resets. */
  predicate IsResetInstant(m: int) {
    m % SecondsPerDay == ResetSecondOfDay
  }

  /** The next reset after `t`: the reset time of the following day when
      `t`'s time of day is at or past it, of the same day otherwise. */
  function NextResetTime(t: int): (r: int)
    ensures IsResetInstant(r)
    ensures t < r <= t + SecondsPerDay
    ensures forall m :: IsResetInstant(m) && t < m ==> r <= m
  {
    var day := t / SecondsPerDay;
    var r := if t % SecondsPerDay >= ResetSecondOfDay then (day + 1) * SecondsPerDay + ResetSecondOfDay
             else day * SecondsPerDay + ResetSecondOfDay;
    NextResetIsFirst(t, r);
    r
  }

  lemma NextResetIsFirst(t: int, r: int)
    requires r == (t / SecondsPerDay + 1) * SecondsPerDay
    ensures IsResetInstant(r)
    ensures t < r <= t + SecondsPerDay
    ensures forall m :: IsResetInstant(m) && t < m ==> r <= m
  {
    forall m | IsResetInstant(m) && t < m ensures r <= m {
      var q := m / SecondsPerDay;
      assert m == q * SecondsPerDay;
    }
  }

  /** The manager as constructed at clock reading `now`. */
  function Init(now: int): (g: Governor)
    ensures g.queries == 0 && !g.forced
    ensures !IsLimitReached(g)
    ensures now < g.nextReset <= now + SecondsPerDay && IsResetInstant(g.nextReset)
  {
    Governor(0, false, NextResetTime(now))
  }

  /** Zero the counter, clear the flag, and move the reset a day on. */
  function Reset(g: Governor): (r: Governor)
    ensures r.queries == 0 && !r.forced && !IsLimitReached(r)
    ensures IsResetInstant(r.nextReset)
    ensures g.nextReset < r.nextReset <= g.nextReset + SecondsPerDay
  {
    Governor(0, false, NextResetTime(g.nextReset))
  }

  /** `n` is the number of sleeps after which the clock first reads past
      `until`; `readings[k]` is the clock after `k` sleeps. */
  ghost predicate IsFirstPast(readings: seq<int>, until: int, n: int) {
    && 0 <= n < |readings|
    && readings[n] > until
    && forall j :: 0 <= j < n ==> readings[j] <= until
  }

  /** `wait_until`: read the clock, and sleep while it is not past `until`.
      `None` when every available reading is still at or before `until`. */
  method WaitUntil(readings: seq<int>, until: int) returns (sleeps: Option<nat>)
    ensures sleeps.Some? ==> IsFirstPast(readings, until, sleeps.value)
    ensures sleeps.None? <==> forall j :: 0 <= j < |readings| ==> readings[j] <= until
  {
    var i := 0;
    while i < |readings| && readings[i] <= until
      invariant 0 <= i <= |readings|
      invariant forall j :: 0 <= j < i ==> readings[j] <= until
    {
      i := i + 1;
    }
    if i < |readings| {
      sleeps := Some(i);
    } else {
      sleeps := None;
    }
  }

  /** With sleeps lasting at least `SleepSeconds`, the wait ends within one
      sleep past `until`: at most `(until - start) / 60 + 1` sleeps. */
  lemma WaitIsBounded(readings: seq<int>, until: int, n: int)
    requires IsFirstPast(readings, until, n)
    requires forall j :: 0 <= j < |readings| ==> readings[j] >= readings[0] + SleepSeconds * j
    ensures n == 0 || n <= (until - readings[0]) / SleepSeconds + 1
  {
    if n > 0 {
      assert readings[n - 1] <= until;
      assert readings[0] + SleepSeconds * (n - 1) <= until;
    }
  }

  datatype WaitOutcome = NotLimited | Waited(sleeps: nat) | StillWaiting

  /** `check_and_wait`: nothing when the limit is not reached; otherwise wait
      past the next reset and reset. */
  method CheckAndWait(g: Governor, readings: seq<int>) returns (g': Governor, outcome: WaitOutcome)
    ensures !IsLimitReached(g) ==> g' == g && outcome == NotLimited
    ensures IsLimitReached(g) ==> !outcome.NotLimited?
    ensures outcome.Waited? ==> IsFirstPast(readings, g.nextReset, outcome.sleeps)
    ensures outcome.Waited? ==>
      && g'.queries == 0 && !g'.forced && !IsLimitReached(g')
      && g'.nextReset == NextResetTime(g.nextReset)
    ensures IsLimitReached(g) ==> (outcome.StillWaiting? <==> forall j :: 0 <= j < |readings| ==> readings[j] <= g.nextReset)
    ensures outcome.StillWaiting? ==> g' == g
  {
    if !IsLimitReached(g) {
      return g, NotLimited;
    }
    var sleeps := WaitUntil(readings, g.nextReset);
    if sleeps.None? {
      return g, StillWaiting;
    }
    g' := Reset(g);
    outcome := Waited(sleeps.value);
  }

  /** `k` queries in a row. */
  function UpdateN(g: Governor, k: nat): Governor
    decreases k
  {
    if k == 0 then g else Update(UpdateN(g, k - 1))
  }

  lemma {:induction false} UpdateNCounts(g: Governor, k: nat)
    ensures UpdateN(g, k).queries == g.queries + k
    ensures UpdateN(g, k).forced == g.forced && UpdateN(g, k).nextReset == g.nextReset
    decreases k
  {
    if k > 0 {
      UpdateNCounts(g, k - 1);
    }
  }

  /** After a reset, the limit is reached exactly at the 1000th query. */
  lemma LimitAfterQueries(g: Governor, k: nat)
    ensures IsLimitReached(UpdateN(Reset(g), k)) <==> k >= RateLimit
  {
    UpdateNCounts(Reset(g), k);
  }

  // ---------------------------------------------------------------------
  // force_ratelimit_reached

  datatype ForceError = RecursionError

  /** `force_ratelimit_reached` as written: it calls itself, one stack frame
      deeper each time, until Python's recursion limit raises. */
  function ForceLimitAsWritten(g: Governor, depth: nat): (r: Result<Governor, ForceError>)
    decreases RecursionLimit - depth
  {
    if depth >= RecursionLimit then Failure(RecursionError)
    else ForceLimitAsWritten(g, depth + 1)
  }

  /** Whatever the state and stack depth, forcing the limit as written
      raises and never sets the flag. */
  lemma {:induction false} ForceLimitAsWrittenRaises(g: Governor, depth: nat)
    ensures ForceLimitAsWritten(g, depth) == Failure(RecursionError)
    decreases RecursionLimit - depth
  {
    if depth < RecursionLimit {
      ForceLimitAsWrittenRaises(g, depth + 1);
    }
  }

  /** The evident intent: raise the flag so that the next check waits for
      the reset. */
  function ForceLimit(g: Governor): (r: Governor)
    ensures IsLimitReached(r)
    ensures r.queries == g.queries && r.nextReset == g.nextReset
  {
    g.(forced := true)
  }

  /** A forced limit holds until the next reset clears it, whatever the
      count. */
  lemma ForcedLimitHoldsUntilReset(g: Governor, k: nat)
    ensures IsLimitReached(UpdateN(ForceLimit(g), k))
    ensures !IsLimitReached(Reset(UpdateN(ForceLimit(g), k)))
  {
    UpdateNCounts(ForceLimit(g), k);
  }
}

=== FILE: search.dfy ===
/** The search back end: query preprocessing, the shaping of one file entry
    per matching item, the grouping of result rows into one object per
    repository, and the ordering of repositories by forks plus stars.

    The database is not modelled: the joined (item, file, part) rows and
    the repository table are inputs. */
module Search {
  import opened Wrappers
  import opened Text
  import opened Seqs
  import Models

  datatype SearchError = EmptySeparator | RepoNotFound(id: int) | RepoNotUnique(id: int)

  // ---------------------------------------------------------------------
  // Query preprocessing

  /** `preprocess_query`: upper-case, then split on whitespace runs (no
      separator) or on every occurrence of the separator. Python rejects an
      empty separator. */
  function PreprocessQuery(query: string, separator: Option<string>): (r: Result<seq<string>, SearchError>)
    ensures r.Failure? <==> separator == Some("")
    ensures r.Failure? ==> r.error == EmptySeparator
    ensures separator.None? ==>
      && (forall k :: 0 <= k < |r.value| ==> |r.value[k]| > 0 && NoSpace(r.value[k]))
      && exists gaps :: IsWordLayout(gaps, r.value) && Weave(gaps, r.value) == Upper(query)
    ensures separator.Some? && r.Success? ==>
      && |r.value| >= 1
      && Join(separator.value, r.value) == Upper(query)
      && (forall k :: 0 <= k < |r.value| ==> !Contains(r.value[k], separator.value))
      && forall k :: 0 <= k < |r.value| - 1 ==>
           !Contains(r.value[k] + separator.value[..|separator.value| - 1], separator.value)
  {
    match separator
    case None =>
      var l := WordLayout(Upper(query));
      Success(l.1)
    case Some(sep) =>
      if |sep| == 0 then Failure(EmptySeparator) else Success(SplitOn(Upper(query), sep))
  }

  /** Upper-casing keeps whitespace where it is. */
  lemma UpperKeepsSpaces(s: string)
    ensures |Upper(s)| == |s|
    ensures forall i :: 0 <= i < |s| ==> IsSpace(Upper(s)[i]) == IsSpace(s[i])
  {
  }

  /** A whitespace split has no terms exactly when the query is blank. */
  lemma {:induction false} NoTermsIffBlank(query: string)
    ensures |PreprocessQuery(query, None).value| == 0 <==> AllSpace(query)
  {
    var u := Upper(query);
    var l := WordLayout(u);
    UpperKeepsSpaces(query);
    if |l.1| == 0 {
      assert Weave(l.0, l.1) == l.0[0];
      assert AllSpace(u);
    } else {
      WeaveHasWord(l.0, l.1);
    }
  }

  /** A layout with a word has a non-space character. */
  lemma WeaveHasWord(gaps: seq<string>, words: seq<string>)
    requires IsWordLayout(gaps, words) && |words| > 0
    ensures exists i :: 0 <= i < |Weave(gaps, words)| && !IsSpace(Weave(gaps, words)[i])
  {
    var w := Weave(gaps, words);
    assert w == gaps[0] + words[0] + Weave(gaps[1..], words[1..]);
    assert w[|gaps[0]|] == words[0][0];
  }

  // ---------------------------------------------------------------------
  // File entries

  /** The position of the last `/`, if any. */
  function LastSlash(path: string): (k: Option<nat>)
    ensures k.Some? ==> k.value < |path| && path[k.value] == '/'
    ensures k.Some? ==> forall j :: k.value < j < |path| ==> path[j] != '/'
    ensures k.None? ==> forall j :: 0 <= j < |path| ==> path[j] != '/'
    decreases |path|
  {
    if |path| == 0 then None
    else if path[|path| - 1] == '/' then Some(|path| - 1)
    else LastSlash(path[..|path| - 1])
  }

  /** `os.path.basename` of a URL: the text after the last `/`. */
  function Basename(path: string): (b: string)
    ensures forall i :: 0 <= i < |b| ==> b[i] != '/'
    ensures IsSuffix(b, path)
    ensures |b| < |path| ==> path[|path| - |b| - 1] == '/'
  {
    match LastSlash(path)
    case None => path
    case Some(k) => path[k + 1..]
  }

  /** `r` is the slice of `t` starting at `i`. */
  predicate SliceAt(r: string, t: string, i: int) {
    0 <= i && i + |r| <= |t| && r == t[i..i + |r|]
  }

  /** At most one leading and one trailing double quote removed. */
  function StripQuotes(t: string): (r: string)
    ensures |t| - 2 <= |r| <= |t|
    ensures SliceAt(r, t, 0) || SliceAt(r, t, 1)
    ensures |t| >= 2 && t[0] == '"' && t[|t| - 1] == '"' ==> r == t[1..|t| - 1]
    ensures |t| > 0 && t[0] == '"' && (|t| == 1 || t[|t| - 1] != '"') ==> r == t[1..]
    ensures |t| > 0 && t[0] != '"' && t[|t| - 1] == '"' ==> r == t[..|t| - 1]
    ensures (|t| == 0 || t[0] != '"') && (|t| == 0 || t[|t| - 1] != '"') ==> r == t
  {
    var a := if |t| > 0 && t[0] == '"' then t[1..] else t;
    if |a| > 0 && a[|a| - 1] == '"' then a[..|a| - 1] else a
  }

  /** The tags of an item: none for a missing tag string, otherwise the
      unquoted string split on `;`. */
  function TagList(tags: Option<string>): (r: seq<string>)
    ensures tags.None? ==> r == []
    ensures tags.Some? ==> |r| >= 1 && Join(";", r) == StripQuotes(tags.value)
    ensures tags.Some? ==> forall k :: 0 <= k < |r| ==> !Contains(r[k], ";")
  {
    match tags
    case None => []
    case Some(t) => SplitOn(StripQuotes(t), ";")
  }

  /** One row of the item query: an item, its file, and its part if
      associated. */
  datatype Row = Row(item: Models.Item, file: Models.FileRecord, part: Option<Models.Part>)

  datatype FileItem = FileItem(
    description: Option<string>,
    fileName: string,
    fileUrl: string,
    component: string,
    tags: seq<string>,
    mpn: string,
    manufacturer: string,
    partDescription: string,
    datasheet: string)

  /** `build_file_item_object`. */
  function FileItemOf(row: Row): (f: FileItem)
    ensures f.description == row.item.description && f.component == row.item.value
    ensures f.fileUrl == row.file.url && f.fileName == Basename(row.file.url)
    ensures f.tags == TagList(row.item.tags)
    ensures row.part.None? ==> f.mpn == "" && f.manufacturer == "" && f.partDescription == "" && f.datasheet == ""
    ensures row.part.Some? ==>
      && f.mpn == row.part.value.mpn && f.manufacturer == row.part.value.manufacturer
      && f.partDescription == row.part.value.description && f.datasheet == row.part.value.datasheet
  {
    var p := row.part.GetOr(Models.Part(0, "", "", "", "", ""));
    FileItem(row.item.description, Basename(row.file.url), row.file.url, row.item.value,
             TagList(row.item.tags), p.mpn, p.manufacturer, p.description, p.datasheet)
  }

  // ---------------------------------------------------------------------
  // Repository objects and grouping

  datatype RepoObj = RepoObj(
    id: int,
    name: string,
    description: string,
    license: string,
    licenseUrl: string,
    readme: string,
    stars: int,
    forks: int,
    url: string,
    files: seq<FileItem>,
    tags: set<string>)

  /** `build_repo_object`: the repository's fields, no files, no tags. */
  function RepoObjOf(r: Models.Repo): (o: RepoObj)
    ensures o.id == r.id && o.files == [] && o.tags == {}
    ensures o.name == r.name && o.description == r.description && o.url == r.url
    ensures o.license == r.license && o.licenseUrl == r.licenseUrl && o.readme == r.readme
    ensures o.stars == r.stars && o.forks == r.forks
  {
    RepoObj(r.id, r.name, r.description, r.license, r.licenseUrl, r.readme, r.stars, r.forks, r.url, [], {})
  }

  /** The repository fields of an object, without its files and tags. */
  function Header(o: RepoObj): RepoObj {
    o.(files := [], tags := {})
  }

  function TagSet(tags: seq<string>): set<string> {
    set t | t in tags
  }

  function ReposWithId(repos: seq<Models.Repo>, id: int): seq<Models.Repo> {
    Filter(repos, (p: Models.Repo) => p.id == id)
  }

  /** `query(Repo).filter(Repo.id == id).one()`: exactly one row, or an
      error. */
  function LookupRepo(repos: seq<Models.Repo>, id: int): (r: Result<Models.Repo, SearchError>)
    ensures r.Success? <==> |ReposWithId(repos, id)| == 1
    ensures r.Success? ==> r.value.id == id && r.value in repos
    ensures r.Failure? && |ReposWithId(repos, id)| == 0 ==> r.error == RepoNotFound(id)
    ensures r.Failure? && |ReposWithId(repos, id)| > 1 ==> r.error == RepoNotUnique(id)
  {
    var c := ReposWithId(repos, id);
    if |c| == 1 then Success(c[0])
    else if |c| == 0 then Failure(RepoNotFound(id))
    else Failure(RepoNotUnique(id))
  }

  /** The position of the repository object with identifier `id`. */
  function IndexOfRepo(list: seq<RepoObj>, id: int): (k: Option<nat>)
    ensures k.Some? ==> k.value < |list| && list[k.value].id == id
    ensures k.None? <==> forall i :: 0 <= i < |list| ==> list[i].id != id
    decreases |list|
  {
    if |list| == 0 then None
    else if list[0].id == id then Some(0)
    else match IndexOfRepo(list[1..], id)
      case None => None
      case Some(k) => Some(k + 1)
  }

  function RemoveAt<T>(s: seq<T>, k: nat): (r: seq<T>)
    requires k < |s|
    ensures |r| == |s| - 1
    ensures forall i :: 0 <= i < k ==> r[i] == s[i]
    ensures forall i :: k <= i < |r| ==> r[i] == s[i + 1]
  {
    s[..k] + s[k + 1..]
  }

  /** One step of the grouping loop: a known repository gets the file entry
      and the tags and moves to the end; an unknown one is looked up and
      appended with this single file. */
  function AddRow(list: seq<RepoObj>, row: Row, repos: seq<Models.Repo>): Result<seq<RepoObj>, SearchError> {
    var id := row.file.repoId;
    var f := FileItemOf(row);
    match IndexOfRepo(list, id)
    case Some(k) =>
      var o := list[k];
      Success(RemoveAt(list, k) + [o.(files := o.files + [f], tags := o.tags + TagSet(f.tags))])
    case None =>
      match LookupRepo(repos, id)
      case Failure(e) => Failure(e)
      case Success(r) => Success(list + [RepoObjOf(r).(files := [f], tags := TagSet(f.tags))])
  }

  /** The grouping loop over the rows, in order. */
  function Group(rows: seq<Row>, repos: seq<Models.Repo>): Result<seq<RepoObj>, SearchError>
    decreases |rows|
  {
    if |rows| == 0 then Success([])
    else match Group(rows[..|rows| - 1], repos)
      case Failure(e) => Failure(e)
      case Success(list) => AddRow(list, rows[|rows| - 1], repos)
  }

  /** The file entries of the rows of repository `id`, in row order. */
  function FilesOf(rows: seq<Row>, id: int): seq<FileItem>
    decreases |rows|
  {
    if |rows| == 0 then []
    else
      var last := rows[|rows| - 1];
      FilesOf(rows[..|rows| - 1], id) + (if last.file.repoId == id then [FileItemOf(last)] else [])
  }

  /** The tags of the rows of repository `id`. */
  function TagsOf(rows: seq<Row>, id: int): set<string>
    decreases |rows|
  {
    if |rows| == 0 then {}
    else
      var last := rows[|rows| - 1];
      TagsOf(rows[..|rows| - 1], id) + (if last.file.repoId == id then TagSet(FileItemOf(last).tags) else {})
  }

  /** The index of the last row of repository `id`, or -1 when it has none. */
  function LastRow(rows: seq<Row>, id: int): (n: int)
    ensures -1 <= n < |rows|
    ensures n >= 0 ==> rows[n].file.repoId == id
    ensures forall j :: n < j < |rows| ==> rows[j].file.repoId != id
    decreases |rows|
  {
    if |rows| == 0 then -1
    else if rows[|rows| - 1].file.repoId == id then |rows| - 1
    else LastRow(rows[..|rows| - 1], id)
  }

  /** One more row changes only the entry of its own repository. */
  lemma RowsAppend(rows: seq<Row>, row: Row, id: int)
    ensures LastRow(rows + [row], id) == if row.file.repoId == id then |rows| else LastRow(rows, id)
    ensures FilesOf(rows + [row], id) == FilesOf(rows, id) + (if row.file.repoId == id then [FileItemOf(row)] else [])
    ensures TagsOf(rows + [row], id) == TagsOf(rows, id) + (if row.file.repoId == id then TagSet(FileItemOf(row).tags) else {})
  {
    assert (rows + [row])[..|rows|] == rows;
  }

  /** A repository without rows has no files and no tags. */
  lemma {:induction false} NoRowsNoFiles(rows: seq<Row>, id: int)
    requires forall i :: 0 <= i < |rows| ==> rows[i].file.repoId != id
    ensures FilesOf(rows, id) == [] && TagsOf(rows, id) == {}
    decreases |rows|
  {
    if |rows| > 0 {
      NoRowsNoFiles(rows[..|rows| - 1], id);
    }
  }

  /** `o` is the object the search builds for its repository: the one
      repository row of that identifier, with the file entries of its rows
      in row order and the union of their tags. */
  predicate Matches(o: RepoObj, rows: seq<Row>, repos: seq<Models.Repo>) {
    && LookupRepo(repos, o.id).Success?
    && Header(o) == RepoObjOf(LookupRepo(repos, o.id).value)
    && o.files == FilesOf(rows, o.id)
    && o.tags == TagsOf(rows, o.id)
  }

  /** Objects ordered by the position of their repository's last row. */
  predicate OrderedByLastRow(list: seq<RepoObj>, rows: seq<Row>) {
    forall i, j :: 0 <= i < j < |list| ==> LastRow(rows, list[i].id) < LastRow(rows, list[j].id)
  }

  /** Every object is built from rows of its repository. */
  predicate AllMatch(list: seq<RepoObj>, rows: seq<Row>, repos: seq<Models.Repo>) {
    forall i :: 0 <= i < |list| ==> LastRow(rows, list[i].id) >= 0 && Matches(list[i], rows, repos)
  }

  /** Every row's repository has an object. */
  predicate Covers(list: seq<RepoObj>, rows: seq<Row>) {
    forall i :: 0 <= i < |rows| ==> IndexOfRepo(list, rows[i].file.repoId).Some?
  }

  /** The grouping of `rows`: one matching object per repository with rows,
      ordered by the position of each repository's last row. */
  predicate Grouped(list: seq<RepoObj>, rows: seq<Row>, repos: seq<Models.Repo>) {
    OrderedByLastRow(list, rows) && AllMatch(list, rows, repos) && Covers(list, rows)
  }

  predicate DistinctIds(list: seq<RepoObj>) {
    forall i, j :: 0 <= i < j < |list| ==> list[i].id != list[j].id
  }

  /** A grouping holds each repository once. */
  lemma OrderedDistinct(list: seq<RepoObj>, rows: seq<Row>)
    requires OrderedByLastRow(list, rows)
    ensures DistinctIds(list)
  {
  }

  /** The object of another repository is unaffected by a new row. */
  lemma MatchesFrame(o: RepoObj, rows: seq<Row>, row: Row, repos: seq<Models.Repo>)
    requires Matches(o, rows, repos) && LastRow(rows, o.id) >= 0 && o.id != row.file.repoId
    ensures Matches(o, rows + [row], repos) && LastRow(rows + [row], o.id) >= 0
  {
    RowsAppend(rows, row, o.id);
  }

  /** The object of the row's repository gains its file and tags. */
  lemma MatchesGrow(o: RepoObj, rows: seq<Row>, row: Row, repos: seq<Models.Repo>)
    requires Matches(o, rows, repos) && o.id == row.file.repoId
    ensures var f := FileItemOf(row);
      Matches(o.(files := o.files + [f], tags := o.tags + TagSet(f.tags)), rows + [row], repos)
  {
    RowsAppend(rows, row, o.id);
  }

  /** A repository seen for the first time gets an object with one file. */
  lemma MatchesFresh(rows: seq<Row>, row: Row, repos: seq<Models.Repo>)
    requires forall i :: 0 <= i < |rows| ==> rows[i].file.repoId != row.file.repoId
    requires LookupRepo(repos, row.file.repoId).Success?
    ensures var f := FileItemOf(row);
      Matches(RepoObjOf(LookupRepo(repos, row.file.repoId).value).(files := [f], tags := TagSet(f.tags)), rows + [row], repos)
  {
    RowsAppend(rows, row, row.file.repoId);
    NoRowsNoFiles(rows, row.file.repoId);
  }

  /** Moving the row's repository to the end keeps the order by last row. */
  lemma OrderedMove(list: seq<RepoObj>, rows: seq<Row>, row: Row, k: nat, o': RepoObj)
    requires OrderedByLastRow(list, rows)
    requires k < |list| && list[k].id == row.file.repoId && o'.id == row.file.repoId
    ensures OrderedByLastRow(RemoveAt(list, k) + [o'], rows + [row])
  {
    var x := row.file.repoId;
    var rows' := rows + [row];
    var list' := RemoveAt(list, k) + [o'];
    OrderedDistinct(list, rows);
    forall i, j | 0 <= i < j < |list'|
      ensures LastRow(rows', list'[i].id) < LastRow(rows', list'[j].id)
    {
      var i0 := if i < k then i else i + 1;
      assert list'[i] == list[i0] && list[i0].id != x;
      RowsAppend(rows, row, list[i0].id);
      RowsAppend(rows, row, list'[j].id);
      if j < |list'| - 1 {
        var j0 := if j < k then j else j + 1;
        assert list'[j] == list[j0];
      }
    }
  }

  /** Appending a new repository keeps the order by last row. */
  lemma OrderedAppend(list: seq<RepoObj>, rows: seq<Row>, row: Row, o': RepoObj)
    requires OrderedByLastRow(list, rows)
    requires forall i :: 0 <= i < |list| ==> list[i].id != row.file.repoId
    requires o'.id == row.file.repoId
    ensures OrderedByLastRow(list + [o'], rows + [row])
  {
    var rows' := rows + [row];
    var list' := list + [o'];
    forall i, j | 0 <= i < j < |list'|
      ensures LastRow(rows', list'[i].id) < LastRow(rows', list'[j].id)
    {
      assert list'[i] == list[i];
      RowsAppend(rows, row, list'[i].id);
      RowsAppend(rows, row, list'[j].id);
    }
  }

  /** The repository of every row, old or new, still has an object. */
  lemma CoversMove(list: seq<RepoObj>, rows: seq<Row>, row: Row, k: nat, o': RepoObj)
    requires Covers(list, rows)
    requires k < |list| && list[k].id == row.file.repoId && o'.id == row.file.repoId
    ensures Covers(RemoveAt(list, k) + [o'], rows + [row])
  {
    var rows' := rows + [row];
    var list' := RemoveAt(list, k) + [o'];
    forall i | 0 <= i < |rows'|
      ensures IndexOfRepo(list', rows'[i].file.repoId).Some?
    {
      var y := rows'[i].file.repoId;
      if y == row.file.repoId {
        assert list'[|list'| - 1].id == y;
      } else {
        assert rows'[i] == rows[i];
        var m := IndexOfRepo(list, y).value;
        var m' := if m < k then m else m - 1;
        assert list'[m'] == list[m];
      }
    }
  }

  lemma CoversAppend(list: seq<RepoObj>, rows: seq<Row>, row: Row, o': RepoObj)
    requires Covers(list, rows)
    requires o'.id == row.file.repoId
    ensures Covers(list + [o'], rows + [row])
  {
    var rows' := rows + [row];
    var list' := list + [o'];
    forall i | 0 <= i < |rows'|
      ensures IndexOfRepo(list', rows'[i].file.repoId).Some?
    {
      var y := rows'[i].file.repoId;
      if y == row.file.repoId {
        assert list'[|list|].id == y;
      } else {
        assert rows'[i] == rows[i];
        var m := IndexOfRepo(list, y).value;
        assert list'[m] == list[m];
      }
    }
  }

  /** A row of a repository already in the list moves that repository, with
      the new file, to the end. */
  lemma AddRowExisting(list: seq<RepoObj>, rows: seq<Row>, row: Row, repos: seq<Models.Repo>, k: nat)
    requires Grouped(list, rows, repos)
    requires IndexOfRepo(list, row.file.repoId) == Some(k)
    ensures AddRow(list, row, repos).Success?
    ensures Grouped(AddRow(list, row, repos).value, rows + [row], repos)
  {
    var x := row.file.repoId;
    var f := FileItemOf(row);
    var o := list[k];
    var o' := o.(files := o.files + [f], tags := o.tags + TagSet(f.tags));
    var list' := RemoveAt(list, k) + [o'];
    assert AddRow(list, row, repos) == Success(list');
    OrderedMove(list, rows, row, k, o');
    CoversMove(list, rows, row, k, o');
    OrderedDistinct(list, rows);
    forall i | 0 <= i < |list'|
      ensures LastRow(rows + [row], list'[i].id) >= 0 && Matches(list'[i], rows + [row], repos)
    {
      if i < |list'| - 1 {
        var i0 := if i < k then i else i + 1;
        assert list'[i] == list[i0] && list[i0].id != x;
        MatchesFrame(list[i0], rows, row, repos);
      } else {
        MatchesGrow(o, rows, row, repos);
        RowsAppend(rows, row, x);
      }
    }
  }

  /** A row of a repository not yet in the list looks the repository up and
      appends it with this one file; the lookup's error is the step's. */
  lemma AddRowNew(list: seq<RepoObj>, rows: seq<Row>, row: Row, repos: seq<Models.Repo>)
    requires Grouped(list, rows, repos)
    requires IndexOfRepo(list, row.file.repoId).None?
    ensures AddRow(list, row, repos).Success? <==> LookupRepo(repos, row.file.repoId).Success?
    ensures AddRow(list, row, repos).Failure? ==>
      AddRow(list, row, repos).error == LookupRepo(repos, row.file.repoId).error
    ensures AddRow(list, row, repos).Success? ==> Grouped(AddRow(list, row, repos).value, rows + [row], repos)
  {
    var x := row.file.repoId;
    if LookupRepo(repos, x).Success? {
      var f := FileItemOf(row);
      var o' := RepoObjOf(LookupRepo(repos, x).value).(files := [f], tags := TagSet(f.tags));
      var list' := list + [o'];
      assert AddRow(list, row, repos) == Success(list');
      OrderedAppend(list, rows, row, o');
      CoversAppend(list, rows, row, o');
      forall i | 0 <= i < |rows| ensures rows[i].file.repoId != x {
        assert IndexOfRepo(list, rows[i].file.repoId).Some?;
      }
      forall i | 0 <= i < |list'|
        ensures LastRow(rows + [row], list'[i].id) >= 0 && Matches(list'[i], rows + [row], repos)
      {
        if i < |list| {
          assert list'[i] == list[i];
          MatchesFrame(list[i], rows, row, repos);
        } else {
          MatchesFresh(rows, row, repos);
          RowsAppend(rows, row, x);
        }
      }
    }
  }

  /** Every row of a grouping has its repository found. */
  lemma GroupedLookups(list: seq<RepoObj>, rows: seq<Row>, repos: seq<Models.Repo>)
    requires Grouped(list, rows, repos)
    ensures forall i :: 0 <= i < |rows| ==> LookupRepo(repos, rows[i].file.repoId).Success?
  {
    forall i | 0 <= i < |rows| ensures LookupRepo(repos, rows[i].file.repoId).Success? {
      var m := IndexOfRepo(list, rows[i].file.repoId).value;
      assert Matches(list[m], rows, repos);
    }
  }

  /** Row `i` is the first row whose repository lookup fails. */
  predicate FirstLookupFailure(rows: seq<Row>, repos: seq<Models.Repo>, i: int) {
    && 0 <= i < |rows|
    && LookupRepo(repos, rows[i].file.repoId).Failure?
    && forall j :: 0 <= j < i ==> LookupRepo(repos, rows[j].file.repoId).Success?
  }

  /** What the grouping loop promises for a prefix of the rows: success
      exactly when every repository is found, then a grouping, otherwise
      the error of the first failed lookup. */
  ghost predicate GroupOutcome(rows: seq<Row>, repos: seq<Models.Repo>) {
    && (Group(rows, repos).Success? <==>
        forall i :: 0 <= i < |rows| ==> LookupRepo(repos, rows[i].file.repoId).Success?)
    && (Group(rows, repos).Success? ==> Grouped(Group(rows, repos).value, rows, repos))
    && (Group(rows, repos).Failure? ==>
        exists i :: FirstLookupFailure(rows, repos, i) && Group(rows, repos).error == LookupRepo(repos, rows[i].file.repoId).error)
  }

  /** One more row keeps the loop's promise. */
  lemma GroupStep(rows: seq<Row>, repos: seq<Models.Repo>)
    requires |rows| > 0 && GroupOutcome(rows[..|rows| - 1], repos)
    ensures GroupOutcome(rows, repos)
  {
    var init := rows[..|rows| - 1];
    var row := rows[|rows| - 1];
    assert rows == init + [row];
    match Group(init, repos)
    case Failure(e) =>
      var i :| FirstLookupFailure(init, repos, i) && e == LookupRepo(repos, init[i].file.repoId).error;
      assert rows[i] == init[i];
      assert FirstLookupFailure(rows, repos, i);
    case Success(list) =>
      match IndexOfRepo(list, row.file.repoId)
      case Some(k) =>
        AddRowExisting(list, init, row, repos, k);
        GroupedLookups(AddRow(list, row, repos).value, rows, repos);
      case None =>
        AddRowNew(list, init, row, repos);
        if AddRow(list, row, repos).Success? {
          GroupedLookups(AddRow(list, row, repos).value, rows, repos);
        } else {
          assert FirstLookupFailure(rows, repos, |init|);
        }
  }

  /** The grouping loop succeeds exactly when every row's repository is
      found once, and then builds the grouping; otherwise it stops with the
      error of the first row whose lookup fails. */
  lemma {:induction false} GroupIsGrouped(rows: seq<Row>, repos: seq<Models.Repo>)
    ensures Group(rows, repos).Success? <==>
      forall i :: 0 <= i < |rows| ==> LookupRepo(repos, rows[i].file.repoId).Success?
    ensures Group(rows, repos).Success? ==> Grouped(Group(rows, repos).value, rows, repos)
    ensures Group(rows, repos).Failure? ==>
      exists i :: FirstLookupFailure(rows, repos, i) && Group(rows, repos).error == LookupRepo(repos, rows[i].file.repoId).error
    decreases |rows|
  {
    if |rows| > 0 {
      GroupIsGrouped(rows[..|rows| - 1], repos);
      GroupStep(rows, repos);
    } else {
      assert Grouped([], rows, repos);
    }
  }

  // ---------------------------------------------------------------------
  // Ordering

  /** The relevance of a repository: forks plus stars. */
  function Score(o: RepoObj): int {
    o.forks + o.stars
  }

  predicate SortedByScore(s: seq<RepoObj>) {
    forall i, j :: 0 <= i < j < |s| ==> Score(s[i]) >= Score(s[j])
  }

  /** The objects of `s` with score `v`, in their order in `s`. */
  function WithScore(s: seq<RepoObj>, v: int): (r: seq<RepoObj>)
    ensures forall i :: 0 <= i < |r| ==> Score(r[i]) == v && r[i] in s
    ensures forall i :: 0 <= i < |s| && Score(s[i]) == v ==> s[i] in r
    decreases |s|
  {
    if |s| == 0 then []
    else WithScore(s[..|s| - 1], v) + (if Score(s[|s| - 1]) == v then [s[|s| - 1]] else [])
  }

  lemma {:induction false} WithScoreAppend(a: seq<RepoObj>, b: seq<RepoObj>, v: int)
    ensures WithScore(a + b, v) == WithScore(a, v) + WithScore(b, v)
    decreases |b|
  {
    if |b| == 0 {
      assert a + b == a;
    } else {
      assert (a + b)[..|a + b| - 1] == a + b[..|b| - 1];
      WithScoreAppend(a, b[..|b| - 1], v);
    }
  }

  /** Insertion of `x` into a list sorted by decreasing score, after every
      object scoring at least as much. */
  function Insert(s: seq<RepoObj>, x: RepoObj): (r: seq<RepoObj>)
    ensures |r| == |s| + 1
    ensures |s| > 0 ==> r[0] == s[0] || r[0] == x
    decreases |s|
  {
    if |s| == 0 then [x]
    else if Score(s[0]) >= Score(x) then [s[0]] + Insert(s[1..], x)
    else [x] + s
  }

  /** Insertion adds exactly `x`. */
  lemma {:induction false} InsertPermutes(s: seq<RepoObj>, x: RepoObj)
    ensures multiset(Insert(s, x)) == multiset(s) + multiset{x}
    decreases |s|
  {
    if |s| > 0 {
      assert s == [s[0]] + s[1..];
      if Score(s[0]) >= Score(x) {
        InsertPermutes(s[1..], x);
      }
    }
  }

  lemma {:induction false} InsertSorted(s: seq<RepoObj>, x: RepoObj)
    requires SortedByScore(s)
    ensures SortedByScore(Insert(s, x))
    decreases |s|
  {
    if |s| > 0 && Score(s[0]) >= Score(x) {
      var t := Insert(s[1..], x);
      InsertSorted(s[1..], x);
      assert Score(s[0]) >= Score(t[0]) by {
        if |s| > 1 { assert t[0] == s[1] || t[0] == x; }
      }
      var r := [s[0]] + t;
      forall i, j | 0 <= i < j < |r| ensures Score(r[i]) >= Score(r[j]) {
        if i == 0 && j > 1 {
          assert Score(t[0]) >= Score(t[j - 1]);
        }
      }
    }
  }

  /** Insertion keeps the relative order of equal scores, `x` last. */
  lemma {:induction false} InsertStable(s: seq<RepoObj>, x: RepoObj, v: int)
    requires SortedByScore(s)
    ensures WithScore(Insert(s, x), v) == WithScore(s, v) + (if Score(x) == v then [x] else [])
    decreases |s|
  {
    if |s| == 0 {
      assert WithScore([x], v) == WithScore([], v) + (if Score(x) == v then [x] else []);
    } else if Score(s[0]) >= Score(x) {
      assert SortedByScore(s[1..]);
      InsertStable(s[1..], x, v);
      InsertStableBehind(s, x, v);
    } else {
      InsertStableFront(s, x, v);
    }
  }

  /** The step of `InsertStable` where `x` goes behind the head. */
  lemma InsertStableBehind(s: seq<RepoObj>, x: RepoObj, v: int)
    requires |s| > 0 && Score(s[0]) >= Score(x)
    requires WithScore(Insert(s[1..], x), v) == WithScore(s[1..], v) + (if Score(x) == v then [x] else [])
    ensures WithScore(Insert(s, x), v) == WithScore(s, v) + (if Score(x) == v then [x] else [])
  {
    var t := Insert(s[1..], x);
    var tail := if Score(x) == v then [x] else [];
    var head := WithScore([s[0]], v);
    assert Insert(s, x) == [s[0]] + t;
    assert [s[0]] + s[1..] == s;
    calc {
      WithScore(Insert(s, x), v);
      { WithScoreAppend([s[0]], t, v); }
      head + WithScore(t, v);
      head + (WithScore(s[1..], v) + tail);
      (head + WithScore(s[1..], v)) + tail;
      { WithScoreAppend([s[0]], s[1..], v); }
      WithScore(s, v) + tail;
    }
  }

  /** The step of `InsertStable` where `x` goes in front. */
  lemma InsertStableFront(s: seq<RepoObj>, x: RepoObj, v: int)
    requires SortedByScore(s) && |s| > 0 && Score(s[0]) < Score(x)
    ensures WithScore(Insert(s, x), v) == WithScore(s, v) + (if Score(x) == v then [x] else [])
  {
    assert Insert(s, x) == [x] + s;
    WithScoreAppend([x], s, v);
    WithScoreAppend(s, [x], v);
    if Score(x) == v {
      NoneScoring(s, v);
    }
  }

  /** When every object scores below `v`, none has score `v`. */
  lemma NoneScoring(s: seq<RepoObj>, v: int)
    requires forall i :: 0 <= i < |s| ==> Score(s[i]) < v
    ensures WithScore(s, v) == []
  {
  }

  /** `sort_by_relevance`: Python's stable sort on forks plus stars,
      reversed. */
  function SortByRelevance(s: seq<RepoObj>): (r: seq<RepoObj>)
    ensures multiset(r) == multiset(s)
    decreases |s|
  {
    if |s| == 0 then []
    else
      assert s == s[..|s| - 1] + [s[|s| - 1]];
      InsertPermutes(SortByRelevance(s[..|s| - 1]), s[|s| - 1]);
      Insert(SortByRelevance(s[..|s| - 1]), s[|s| - 1])
  }

  /** The order is by decreasing score, and objects of equal score keep
      their order in the input. */
  lemma {:induction false} SortIsStable(s: seq<RepoObj>)
    ensures SortedByScore(SortByRelevance(s))
    ensures forall v :: WithScore(SortByRelevance(s), v) == WithScore(s, v)
    decreases |s|
  {
    if |s| > 0 {
      var init := s[..|s| - 1];
      var x := s[|s| - 1];
      SortIsStable(init);
      InsertSorted(SortByRelevance(init), x);
      assert SortByRelevance(s) == Insert(SortByRelevance(init), x);
      forall v ensures WithScore(SortByRelevance(s), v) == WithScore(s, v) {
        SortStep(init, x, v);
      }
    }
  }

  /** One step of `SortIsStable`: the last object joins its score class
      at the end. */
  lemma SortStep(init: seq<RepoObj>, x: RepoObj, v: int)
    requires SortedByScore(SortByRelevance(init))
    requires WithScore(SortByRelevance(init), v) == WithScore(init, v)
    ensures WithScore(Insert(SortByRelevance(init), x), v) == WithScore(init + [x], v)
  {
    InsertStable(SortByRelevance(init), x, v);
    WithScoreAppend(init, [x], v);
    assert WithScore([x], v) == (if Score(x) == v then [x] else []) by {
      assert [x][..0] == [];
    }
  }

  /** Sorting keeps distinct identifiers distinct. */
  lemma {:induction false} SortKeepsDistinct(s: seq<RepoObj>)
    requires DistinctIds(s)
    ensures DistinctIds(SortByRelevance(s))
    decreases |s|
  {
    if |s| > 0 {
      var init := s[..|s| - 1];
      var x := s[|s| - 1];
      assert DistinctIds(init);
      SortKeepsDistinct(init);
      var t := SortByRelevance(init);
      forall o | o in t ensures o.id != x.id {
        assert o in multiset(init);
      }
      InsertKeepsDistinct(t, x);
    }
  }

  lemma {:induction false} InsertKeepsDistinct(s: seq<RepoObj>, x: RepoObj)
    requires DistinctIds(s)
    requires forall o :: o in s ==> o.id != x.id
    ensures DistinctIds(Insert(s, x))
    decreases |s|
  {
    if |s| > 0 && Score(s[0]) >= Score(x) {
      var t := Insert(s[1..], x);
      InsertKeepsDistinct(s[1..], x);
      InsertPermutes(s[1..], x);
      forall o | o in t ensures o.id != s[0].id {
        assert o in multiset(t);
      }
      var r := [s[0]] + t;
      forall i, j | 0 <= i < j < |r| ensures r[i].id != r[j].id {
        if i == 0 { assert r[j] in t; }
      }
    }
  }

  /** Objects of equal score appear in the order of their repositories'
      last rows. */
  predicate TiesByLastRow(s: seq<RepoObj>, rows: seq<Row>) {
    forall i, j :: 0 <= i < j < |s| && Score(s[i]) == Score(s[j]) ==>
      LastRow(rows, s[i].id) < LastRow(rows, s[j].id)
  }

  /** The last rows of the objects of `s` scoring like `x` precede `x`'s. */
  predicate TiesBefore(s: seq<RepoObj>, x: RepoObj, rows: seq<Row>) {
    forall k :: 0 <= k < |s| && Score(s[k]) == Score(x) ==> LastRow(rows, s[k].id) < LastRow(rows, x.id)
  }

  /** Inserting an object whose last row follows those of its equals keeps
      ties in last-row order. */
  lemma {:induction false} InsertKeepsTies(s: seq<RepoObj>, x: RepoObj, rows: seq<Row>)
    requires SortedByScore(s) && TiesByLastRow(s, rows) && TiesBefore(s, x, rows)
    ensures TiesByLastRow(Insert(s, x), rows)
    decreases |s|
  {
    if |s| > 0 {
      if Score(s[0]) >= Score(x) {
        assert SortedByScore(s[1..]);
        assert TiesByLastRow(s[1..], rows) by {
          forall i, j | 0 <= i < j < |s[1..]| && Score(s[1..][i]) == Score(s[1..][j])
            ensures LastRow(rows, s[1..][i].id) < LastRow(rows, s[1..][j].id)
          {
            assert s[1..][i] == s[i + 1] && s[1..][j] == s[j + 1];
          }
        }
        assert TiesBefore(s[1..], x, rows) by {
          forall k | 0 <= k < |s[1..]| && Score(s[1..][k]) == Score(x)
            ensures LastRow(rows, s[1..][k].id) < LastRow(rows, x.id)
          {
            assert s[1..][k] == s[k + 1];
          }
        }
        InsertKeepsTies(s[1..], x, rows);
        InsertTiesBehind(s, x, rows);
      } else {
        InsertTiesFront(s, x, rows);
      }
    }
  }

  /** The step of `InsertKeepsTies` where `x` goes behind the head. */
  lemma InsertTiesBehind(s: seq<RepoObj>, x: RepoObj, rows: seq<Row>)
    requires |s| > 0 && Score(s[0]) >= Score(x)
    requires TiesByLastRow(s, rows) && TiesBefore(s, x, rows)
    requires TiesByLastRow(Insert(s[1..], x), rows)
    ensures TiesByLastRow(Insert(s, x), rows)
  {
    var t := Insert(s[1..], x);
    var r := Insert(s, x);
    assert r == [s[0]] + t;
    forall j | 0 < j < |r| && Score(r[0]) == Score(r[j])
      ensures LastRow(rows, r[0].id) < LastRow(rows, r[j].id)
    {
      assert r[j] == t[j - 1];
      HeadBeforeInserted(s, x, rows, j - 1);
    }
    forall i, j | 0 < i < j < |r| && Score(r[i]) == Score(r[j])
      ensures LastRow(rows, r[i].id) < LastRow(rows, r[j].id)
    {
      assert r[i] == t[i - 1] && r[j] == t[j - 1];
    }
  }

  /** The head of `s` precedes, among its equals, every object of the
      insertion into the tail. */
  lemma HeadBeforeInserted(s: seq<RepoObj>, x: RepoObj, rows: seq<Row>, j: nat)
    requires |s| > 0 && TiesByLastRow(s, rows) && TiesBefore(s, x, rows)
    requires j < |Insert(s[1..], x)| && Score(s[0]) == Score(Insert(s[1..], x)[j])
    ensures LastRow(rows, s[0].id) < LastRow(rows, Insert(s[1..], x)[j].id)
  {
    var y := Insert(s[1..], x)[j];
    InsertPermutes(s[1..], x);
    assert y in multiset(Insert(s[1..], x));
    if y != x {
      assert y in multiset(s[1..]);
      var k :| 0 <= k < |s[1..]| && s[1..][k] == y;
      assert s[k + 1] == y;
    }
  }

  /** The step of `InsertKeepsTies` where `x` goes in front: it ties with
      nothing. */
  lemma InsertTiesFront(s: seq<RepoObj>, x: RepoObj, rows: seq<Row>)
    requires |s| > 0 && Score(s[0]) < Score(x)
    requires SortedByScore(s) && TiesByLastRow(s, rows)
    ensures TiesByLastRow(Insert(s, x), rows)
  {
    var r := Insert(s, x);
    assert r == [x] + s;
    forall j | 0 < j < |r| ensures Score(r[0]) != Score(r[j]) {
      assert r[j] == s[j - 1];
      assert Score(s[0]) >= Score(s[j - 1]);
    }
    forall i, j | 0 < i < j < |r| && Score(r[i]) == Score(r[j])
      ensures LastRow(rows, r[i].id) < LastRow(rows, r[j].id)
    {
      assert r[i] == s[i - 1] && r[j] == s[j - 1];
    }
  }

  /** Sorting a list ordered by last row leaves equal scores in last-row
      order. */
  lemma {:induction false} SortKeepsTies(s: seq<RepoObj>, rows: seq<Row>)
    requires OrderedByLastRow(s, rows)
    ensures TiesByLastRow(SortByRelevance(s), rows)
    decreases |s|
  {
    if |s| > 0 {
      var init := s[..|s| - 1];
      var x := s[|s| - 1];
      assert OrderedByLastRow(init, rows);
      SortKeepsTies(init, rows);
      SortIsStable(init);
      var t := SortByRelevance(init);
      forall n | 0 <= n < |t| && Score(t[n]) == Score(x) ensures LastRow(rows, t[n].id) < LastRow(rows, x.id) {
        assert t[n] in multiset(init);
        var k :| 0 <= k < |init| && init[k] == t[n];
        assert s[k] == t[n];
      }
      InsertKeepsTies(t, x, rows);
    }
  }

  // ---------------------------------------------------------------------
  // Search

  datatype SearchResult = NoTerms | Found(repos: seq<RepoObj>) | Error(error: SearchError)

  /** The rows whose item value contains the term, ignoring case
      (`ilike '%term%'`). */
  function MatchingRows(rows: seq<Row>, term: string): (m: seq<Row>)
    ensures IsSubsequence(m, rows)
    ensures forall i :: 0 <= i < |m| ==> ContainsIgnoringCase(m[i].item.value, term)
    ensures forall i :: 0 <= i < |rows| && ContainsIgnoringCase(rows[i].item.value, term) ==> rows[i] in m
    ensures forall x :: multiset(m)[x] == (if ContainsIgnoringCase(x.item.value, term) then multiset(rows)[x] else 0)
  {
    FilterIsSubsequence(rows, (r: Row) => ContainsIgnoringCase(r.item.value, term));
    FilterMultiset(rows, (r: Row) => ContainsIgnoringCase(r.item.value, term));
    Filter(rows, (r: Row) => ContainsIgnoringCase(r.item.value, term))
  }

  /** `search`: the first query term selects the rows, which are grouped
      per repository and ordered by relevance. */
  function SearchFor(query: string, separator: Option<string>, rows: seq<Row>, repos: seq<Models.Repo>): (r: SearchResult)
    ensures r.NoTerms? <==> separator.None? && AllSpace(query)
    ensures r == Error(EmptySeparator) <==> separator == Some("")
    ensures r.Found? ==> SortedByScore(r.repos) && DistinctIds(r.repos)
  {
    NoTermsIffBlank(query);
    match PreprocessQuery(query, separator)
    case Failure(e) => Error(e)
    case Success(terms) =>
      if |terms| == 0 then NoTerms
      else
        var m := MatchingRows(rows, terms[0]);
        GroupIsGrouped(m, repos);
        match Group(m, repos)
        case Failure(e) => Error(e)
        case Success(list) =>
          OrderedDistinct(list, m);
          SortIsStable(list);
          SortKeepsDistinct(list);
          Found(SortByRelevance(list))
  }

  /** The first term of the query, when it has one. */
  function FirstTerm(query: string, separator: Option<string>): Option<string> {
    match PreprocessQuery(query, separator)
    case Success(terms) => if |terms| > 0 then Some(terms[0]) else None
    case Failure(_) => None
  }

    /** A query whose first term matches no row finds no repository. */
  lemma NoMatchFindsNothing(query: string, separator: Option<string>, rows: seq<Row>, repos: seq<Models.Repo>)
    requires FirstTerm(query, separator).Some?
    requires |MatchingRows(rows, FirstTerm(query, separator).value)| == 0
    ensures SearchFor(query, separator, rows, repos) == Found([])
  {
    var m := MatchingRows(rows, FirstTerm(query, separator).value);
    assert Group(m, repos) == Success([]);
  }

  /** A successful search holds, for each repository with a matching row,
      exactly one object carrying that repository's fields, the files of
      its matching rows in row order and their tags, ordered by decreasing
      relevance; it fails only when some matching row's repository is
      missing or duplicated. */
  lemma SearchGroupsMatches(query: string, separator: Option<string>, rows: seq<Row>, repos: seq<Models.Repo>)
    requires FirstTerm(query, separator).Some?
    ensures var m := MatchingRows(rows, FirstTerm(query, separator).value);
      var r := SearchFor(query, separator, rows, repos);
      && (r.Found? <==> forall i :: 0 <= i < |m| ==> LookupRepo(repos, m[i].file.repoId).Success?)
      && (r.Found? ==> forall k :: 0 <= k < |r.repos| ==> Matches(r.repos[k], m, repos))
      && (r.Found? ==> forall k :: 0 <= k < |r.repos| ==> LastRow(m, r.repos[k].id) >= 0)
      && (r.Found? ==> multiset(r.repos) == multiset(Group(m, repos).value))
      && (r.Found? ==> forall i :: 0 <= i < |m| ==> IndexOfRepo(r.repos, m[i].file.repoId).Some?)
      && (r.Found? ==> SortedByScore(r.repos) && TiesByLastRow(r.repos, m))
      && (r.Error? ==> exists i :: FirstLookupFailure(m, repos, i) && r.error == LookupRepo(repos, m[i].file.repoId).error)
  {
    var m := MatchingRows(rows, FirstTerm(query, separator).value);
    GroupIsGrouped(m, repos);
    var r := SearchFor(query, separator, rows, repos);
    if r.Found? {
      var list := Group(m, repos).value;
      assert r.repos == SortByRelevance(list);
      forall k | 0 <= k < |r.repos| ensures LastRow(m, r.repos[k].id) >= 0 && Matches(r.repos[k], m, repos) {
        assert r.repos[k] in multiset(list);
      }
      forall i | 0 <= i < |m| ensures IndexOfRepo(r.repos, m[i].file.repoId).Some? {
        var n := IndexOfRepo(list, m[i].file.repoId).value;
        assert list[n] in multiset(r.repos);
      }
      SortKeepsTies(list, m);
    }
  }
}

=== FILE: seqs.dfy ===
/** Order-preserving filtering of sequences, the shape of every Python list
    comprehension `[x for x in xs if p(x)]` in the modelled code. */
module Seqs {

  /** `a` can be obtained from `b` by deleting elements; the survivors keep
      their relative order. */
  predicate IsSubsequence<T(==)>(a: seq<T>, b: seq<T>)
    decreases |b|
  {
    if |a| == 0 then true
    else if |b| == 0 then false
    else if a[0] == b[0] then IsSubsequence(a[1..], b[1..])
    else IsSubsequence(a, b[1..])
  }

  /** The elements of `s` satisfying `p`, in their original order. */
  function Filter<T>(s: seq<T>, p: T -> bool): (r: seq<T>)
    ensures |r| <= |s|
    ensures forall i :: 0 <= i < |r| ==> r[i] in s && p(r[i])
    ensures forall i :: 0 <= i < |s| && p(s[i]) ==> s[i] in r
    decreases |s|
  {
    if |s| == 0 then []
    else (if p(s[0]) then [s[0]] else []) + Filter(s[1..], p)
  }

  /** A filter keeps exactly the order of its input. */
  lemma {:induction false} FilterIsSubsequence<T>(s: seq<T>, p: T -> bool)
    ensures IsSubsequence(Filter(s, p), s)
    decreases |s|
  {
    if |s| > 0 {
      FilterIsSubsequence(s[1..], p);
      var r := Filter(s[1..], p);
      if p(s[0]) {
        assert Filter(s, p) == [s[0]] + r;
        assert ([s[0]] + r)[1..] == r;
      } else {
        assert Filter(s, p) == r;
        SubsequenceOfTail(r, s);
      }
    }
  }

  /** A subsequence of the tail is a subsequence of the whole. */
  lemma {:induction false} SubsequenceOfTail<T>(a: seq<T>, b: seq<T>)
    requires |b| > 0
    requires IsSubsequence(a, b[1..])
    ensures IsSubsequence(a, b)
    decreases |b|, 0
  {
    if |a| > 0 && a[0] == b[0] {
      // a[0] matched somewhere in b[1..]; a[1..] then sits inside b[1..] too
      SubsequenceDropHead(a, b[1..]);
    }
  }

  /** Dropping the first element of a non-empty subsequence keeps it one. */
  lemma {:induction false} SubsequenceDropHead<T>(a: seq<T>, b: seq<T>)
    requires |a| > 0
    requires IsSubsequence(a, b)
    ensures IsSubsequence(a[1..], b)
    decreases |b|, 1
  {
    assert |b| > 0;
    if a[0] == b[0] {
      if |a[1..]| > 0 && |b| > 0 {
        SubsequenceOfTail(a[1..], b);
      }
    } else {
      SubsequenceDropHead(a, b[1..]);
      SubsequenceOfTail(a[1..], b);
    }
  }

  /** A filter keeps every accepted value as often as the input holds it,
      and no rejected value. */
  lemma {:induction false} FilterMultiset<T>(s: seq<T>, p: T -> bool)
    ensures forall x :: multiset(Filter(s, p))[x] == if p(x) then multiset(s)[x] else 0
    decreases |s|
  {
    if |s| > 0 {
      FilterMultiset(s[1..], p);
      assert s == [s[0]] + s[1..];
      var head := if p(s[0]) then [s[0]] else [];
      assert Filter(s, p) == head + Filter(s[1..], p);
      assert multiset(Filter(s, p)) == multiset(head) + multiset(Filter(s[1..], p));
      assert multiset(s) == multiset([s[0]]) + multiset(s[1..]);
    }
  }

  /** Filtering by `p` and then by `q` is filtering once by any `r` that
      agrees with their conjunction on the elements. */
  lemma {:induction false} FilterFilter<T>(s: seq<T>, p: T -> bool, q: T -> bool, r: T -> bool)
    requires forall i :: 0 <= i < |s| ==> (p(s[i]) && q(s[i])) == r(s[i])
    ensures Filter(Filter(s, p), q) == Filter(s, r)
    decreases |s|
  {
    if |s| > 0 {
      FilterFilter(s[1..], p, q, r);
      var head := if p(s[0]) then [s[0]] else [];
      FilterAppend(head, Filter(s[1..], p), q);
      if p(s[0]) {
        assert Filter(head, q) == (if q(s[0]) then [s[0]] else []) by {
          assert head[1..] == [];
        }
      }
    }
  }

  /** Filtering distributes over concatenation. */
  lemma {:induction false} FilterAppend<T>(a: seq<T>, b: seq<T>, p: T -> bool)
    ensures Filter(a + b, p) == Filter(a, p) + Filter(b, p)
    decreases |a|
  {
    if |a| > 0 {
      assert (a + b)[0] == a[0];
      assert (a + b)[1..] == a[1..] + b;
      FilterAppend(a[1..], b, p);
    } else {
      assert a + b == b;
    }
  }

  /** Filters by predicates agreeing on every element are equal. */
  lemma {:induction false} FilterCongruent<T>(s: seq<T>, p: T -> bool, q: T -> bool)
    requires forall i :: 0 <= i < |s| ==> p(s[i]) == q(s[i])
    ensures Filter(s, p) == Filter(s, q)
    decreases |s|
  {
    if |s| > 0 {
      FilterCongruent(s[1..], p, q);
    }
  }

  /** A filter keeps something exactly when some element passes. */
  lemma FilterNonEmpty<T>(s: seq<T>, p: T -> bool)
    ensures |Filter(s, p)| > 0 <==> exists i :: 0 <= i < |s| && p(s[i])
  {
    var r := Filter(s, p);
    if |r| > 0 {
      assert r[0] in s && p(r[0]);
      var i :| 0 <= i < |s| && s[i] == r[0];
    }
  }
}

=== FILE: text.dfy ===
/** Strings as `seq<char>`: ASCII case mapping, containment, and the two
    splitting behaviours of Python's `str.split` (on whitespace runs when no
    separator is given, on every occurrence of an explicit separator). */
module Text {
  import opened Wrappers

  /** Code points of the characters Python's `str.isspace` accepts. */
  const SpaceCodePoints: set<int> :=
    {9, 10, 11, 12, 13, 28, 29, 30, 31, 32, 0x85, 0xA0, 0x1680,
     0x2000, 0x2001, 0x2002, 0x2003, 0x2004, 0x2005, 0x2006, 0x2007, 0x2008, 0x2009, 0x200A,
     0x2028, 0x2029, 0x202F, 0x205F, 0x3000}

  predicate IsSpace(c: char) {
    c as int in SpaceCodePoints
  }

  predicate IsAsciiDigit(c: char) { '0' <= c <= '9' }

  /** ASCII upper-casing of one character; other characters are unchanged. */
  function UpperChar(c: char): char {
    if 'a' <= c <= 'z' then (c as int - 32) as char else c
  }

  /** ASCII lower-casing of one character; other characters are unchanged. */
  function LowerChar(c: char): char {
    if 'A' <= c <= 'Z' then (c as int + 32) as char else c
  }

  function Upper(s: string): string {
    seq(|s|, i requires 0 <= i < |s| => UpperChar(s[i]))
  }

  function Lower(s: string): string {
    seq(|s|, i requires 0 <= i < |s| => LowerChar(s[i]))
  }

  /** Every character is 7-bit and none is a line feed. */
  predicate IsPlainAscii(s: string) {
    forall i :: 0 <= i < |s| ==> s[i] as int < 128 && s[i] != '\n'
  }

  predicate IsSuffix(suffix: string, s: string) {
    |suffix| <= |s| && s[|s| - |suffix|..] == suffix
  }

  /** `needle` occurs in `s` starting at index `i`. */
  predicate OccursAt(s: string, needle: string, i: int) {
    0 <= i && i + |needle| <= |s| && s[i..i + |needle|] == needle
  }

  predicate Contains(s: string, needle: string) {
    exists i :: 0 <= i <= |s| - |needle| && OccursAt(s, needle, i)
  }

  /** Case-insensitive containment, as SQLite evaluates `x ILIKE '%needle%'`
      (both sides lower-cased, ASCII only). */
  predicate ContainsIgnoringCase(s: string, needle: string) {
    Contains(Lower(s), Lower(needle))
  }

  /** The index of the leftmost occurrence of `needle` at or after `from`. */
  function FindFrom(s: string, needle: string, from: nat): (r: Option<nat>)
    requires |needle| > 0
    ensures r.Some? ==> from <= r.value && OccursAt(s, needle, r.value)
    ensures r.Some? ==> forall j :: from <= j < r.value ==> !OccursAt(s, needle, j)
    ensures r.None? ==> forall j :: from <= j ==> !OccursAt(s, needle, j)
    decreases |s| - from
  {
    if from + |needle| > |s| then None
    else if s[from..from + |needle|] == needle then Some(from)
    else FindFrom(s, needle, from + 1)
  }

  /** Python's `sep.join(parts)`. */
  function Join(sep: string, parts: seq<string>): string
    decreases |parts|
  {
    if |parts| == 0 then ""
    else if |parts| == 1 then parts[0]
    else parts[0] + sep + Join(sep, parts[1..])
  }

  /** Python's `s.split(sep)` for a non-empty separator: cut at every
      occurrence, scanning left to right, never producing an empty list. */
  function SplitOn(s: string, sep: string): (parts: seq<string>)
    requires |sep| > 0
    ensures |parts| >= 1
    ensures Join(sep, parts) == s
    ensures forall k :: 0 <= k < |parts| ==> !Contains(parts[k], sep)
    ensures forall k :: 0 <= k < |parts| - 1 ==> !Contains(parts[k] + sep[..|sep| - 1], sep)
    decreases |s|
  {
    match FindFrom(s, sep, 0)
    case None => [s]
    case Some(i) =>
      var rest := SplitOn(s[i + |sep|..], sep);
      FirstCut(s, sep, i);
      LeftmostCut(s, sep, i);
      var parts := [s[..i]] + rest;
      assert parts[1..] == rest;
      assert forall k :: 1 <= k < |parts| ==> parts[k] == rest[k - 1];
      parts
  }

  /** Cutting at the leftmost occurrence of `sep` leaves a head free of
      `sep`, and the pieces rebuild the string. */
  lemma FirstCut(s: string, sep: string, i: nat)
    requires |sep| > 0 && FindFrom(s, sep, 0) == Some(i)
    ensures i + |sep| <= |s|
    ensures s == s[..i] + sep + s[i + |sep|..]
    ensures !Contains(s[..i], sep)
  {
    assert s[i..i + |sep|] == sep;
    HeadFree(s, sep, i);
  }

  /** No occurrence starts before `i`, so none lies inside `s[..i]`. */
  lemma HeadFree(s: string, sep: string, i: nat)
    requires |sep| > 0 && i <= |s|
    requires forall j :: 0 <= j < i ==> !OccursAt(s, sep, j)
    ensures !Contains(s[..i], sep)
  {
    var head := s[..i];
    forall j | 0 <= j <= |head| - |sep|
      ensures !OccursAt(head, sep, j)
    {
      assert !OccursAt(s, sep, j);
      assert head[j..j + |sep|] == s[j..j + |sep|];
    }
  }

  /** The cut is at the leftmost occurrence: the head followed by all but
      the last character of `sep` still holds no occurrence of `sep`. */
  lemma LeftmostCut(s: string, sep: string, i: nat)
    requires |sep| > 0 && FindFrom(s, sep, 0) == Some(i)
    ensures !Contains(s[..i] + sep[..|sep| - 1], sep)
  {
    var m := i + |sep| - 1;
    assert s[i..i + |sep|] == sep;
    var w := s[..i] + sep[..|sep| - 1];
    assert w == s[..m];
    forall j | 0 <= j <= |w| - |sep|
      ensures !OccursAt(w, sep, j)
    {
      assert !OccursAt(s, sep, j);
      assert w[j..j + |sep|] == s[j..j + |sep|];
    }
  }

  /** Number of leading characters whose `IsSpace` equals `spaces`. */
  function SpanLength(s: string, spaces: bool): (k: nat)
    ensures k <= |s|
    ensures forall i :: 0 <= i < k ==> IsSpace(s[i]) == spaces
    ensures k < |s| ==> IsSpace(s[k]) != spaces
    decreases |s|
  {
    if |s| == 0 || IsSpace(s[0]) != spaces then 0
    else 1 + SpanLength(s[1..], spaces)
  }

  /** Interleaves gaps and words: gaps[0] + words[0] + gaps[1] + ... */
  function Weave(gaps: seq<string>, words: seq<string>): string
    requires |gaps| == |words| + 1
    decreases |words|
  {
    if |words| == 0 then gaps[0]
    else gaps[0] + words[0] + Weave(gaps[1..], words[1..])
  }

  predicate AllSpace(s: string) { forall i :: 0 <= i < |s| ==> IsSpace(s[i]) }

  predicate NoSpace(s: string) { forall i :: 0 <= i < |s| ==> !IsSpace(s[i]) }

  /** The words of a whitespace split are the maximal non-space runs: they
      are non-empty and space-free, and are separated by non-empty runs of
      spaces; only the outer gaps may be empty. */
  predicate IsWordLayout(gaps: seq<string>, words: seq<string>) {
    && |gaps| == |words| + 1
    && (forall k :: 0 <= k < |gaps| ==> AllSpace(gaps[k]))
    && (forall k :: 0 < k < |words| ==> |gaps[k]| > 0)
    && (forall k :: 0 <= k < |words| ==> |words[k]| > 0 && NoSpace(words[k]))
  }

  /** Python's `s.split()`, returned together with the gaps between words. */
  function WordLayout(s: string): (l: (seq<string>, seq<string>))
    ensures IsWordLayout(l.0, l.1)
    ensures Weave(l.0, l.1) == s
    ensures |s| == 0 ==> |l.1| == 0
    ensures |l.1| > 0 && IsSpace(s[0]) ==> |l.0[0]| > 0
    decreases |s|
  {
    var k := SpanLength(s, true);
    if k == |s| then ([s], [])
    else
      var w := SpanLength(s[k..], false);
      var word := s[k..k + w];
      var rest := s[k + w..];
      var sub := WordLayout(rest);
      FirstWord(s, k, w);
      ThreeCut(s, k, k + w);
      ConsWord(s[..k], word, rest, sub.0, sub.1);
      ([s[..k]] + sub.0, [word] + sub.1)
  }

  /** The leading gap, the first word and what follows it, as `WordLayout`
      cuts them. */
  lemma FirstWord(s: string, k: nat, w: nat)
    requires k == SpanLength(s, true) && k < |s|
    requires w == SpanLength(s[k..], false)
    ensures AllSpace(s[..k])
    ensures w > 0 && NoSpace(s[k..k + w])
    ensures k + w < |s| ==> IsSpace(s[k + w])
    ensures k + w <= |s|
  {
    forall i | 0 <= i < k ensures IsSpace(s[..k][i]) { assert s[..k][i] == s[i]; }
    assert s[k..][0] == s[k];
    var word := s[k..k + w];
    forall i | 0 <= i < w ensures !IsSpace(word[i]) { assert word[i] == s[k..][i]; }
    if k + w < |s| { assert s[k + w] == s[k..][w]; }
  }

  lemma ThreeCut(s: string, i: nat, j: nat)
    requires i <= j <= |s|
    ensures s == s[..i] + s[i..j] + s[j..]
  {
    assert s[..i] + s[i..j] == s[..j];
  }

  /** Prepending a space gap and a word to the layout of the remainder. */
  lemma ConsWord(gap: string, word: string, rest: string, gaps: seq<string>, words: seq<string>)
    requires AllSpace(gap) && |word| > 0 && NoSpace(word)
    requires IsWordLayout(gaps, words) && Weave(gaps, words) == rest
    requires |rest| == 0 ==> |words| == 0
    requires |rest| > 0 ==> IsSpace(rest[0])
    requires |words| > 0 && IsSpace(rest[0]) ==> |gaps[0]| > 0
    ensures IsWordLayout([gap] + gaps, [word] + words)
    ensures Weave([gap] + gaps, [word] + words) == gap + word + rest
  {
    var g := [gap] + gaps;
    var ws := [word] + words;
    assert g[1..] == gaps && ws[1..] == words;
    forall k | 0 < k < |ws|
      ensures |g[k]| > 0
    {
      assert g[k] == gaps[k - 1];
    }
    forall k | 0 <= k < |g|
      ensures AllSpace(g[k])
    {
      if k > 0 { assert g[k] == gaps[k - 1]; }
    }
    forall k | 0 <= k < |ws|
      ensures |ws[k]| > 0 && NoSpace(ws[k])
    {
      if k > 0 { assert ws[k] == words[k - 1]; }
    }
  }

  /** Python's `s.split()` with no separator. */
  function SplitWhitespace(s: string): seq<string> {
    WordLayout(s).1
  }
}

=== FILE: wrappers.dfy ===
/** Failure-carrying values: Python's `None` and raised exceptions become
    explicit `Option` and `Result` values throughout the model. */
module Wrappers {

  /** A value that may be absent (Python `None`). */
  datatype Option<+T> = None | Some(value: T) {

    /** The carried value, or `default` when absent. */
    function GetOr(default: T): T {
      match this
      case Some(v) => v
      case None => default
    }
  }

  /** The outcome of an operation that either produces a value or raises. */
  datatype Result<+R, +E> = Success(value: R) | Failure(error: E)
}
